=== FILE: README.md ===
# biomero-schema workflow descriptors, modelled in Dafny

The biomero-schema package describes an image-analysis workflow as a JSON
document. `src/biomero_schema/models.py` declares the pydantic records of
that document:

- the `WorkflowSchema` root;
- its authors, institutions and citations;
- the container image and the technical configuration with its resources;
- input `Parameter`s and `OutputParameter`s.

The command-line tool in `src/schema_validator/cli.py` has two commands:

- `validate` checks a file against the bundled JSON Schema.
- `parse` turns a file into a `WorkflowSchema` and prints it in one of three
  ways:
  - as alias-keyed JSON (`--json`);
  - as a pretty-printed object (`--pretty`);
  - as a short summary (the default).

The model has these modules:

- `Wrappers`: the `Option` and `Result` types.
- `JsonValues`: the JSON document and its error paths. It holds the field
  keys with their aliases and how a key is looked up:
  - The alias is tried first.
  - The Python name is tried only where `populate_by_name` is set.
  - Unknown keys are ignored.

  It also holds the generic readers for required fields, optional fields,
  scalars, `Literal` strings and lists.
- `Models`: one datatype per record and one enumeration per `Literal`
  domain. Each enumeration has its spelling table. The module also holds the
  alias table.
- `Decoder`: `model_validate` as a function from a JSON document to
  `Result<WorkflowSchema, Error>`. It enforces the following:
  - required versus optional fields, with absent or null giving `None`;
  - the value kinds;
  - the `Literal` domains;
  - `min_length=1` on citations;
  - the alias table, with `populate_by_name` on the root record only.
- `Encoder`: `model_dump_json(by_alias=True)`. Every field is written under
  its alias, and `None` is written as `null`.
- `RoundTrip`: decoding what the encoder wrote gives back the same record.
  This is proved for every record and for the whole workflow. As a result,
  the alias-keyed document that `parse --json` serialises decodes to the
  same workflow.
- `DecodeProperties`: these properties of the decoder:
  - which documents are rejected;
  - which keys are read;
  - that unknown keys and, in nested records, Python field names are
    ignored;
  - that the root record accepts either spelling of an aliased field.
- `Decimal`: Python's `str()` of a natural number, and reading a count
  back from a printed line.
- `Cli`: the presentation logic of the two commands:
  - output-mode precedence;
  - the summary lines;
  - the `" -> "` join of a validation error's path;
  - the lines and exit status of each failure path.

  Reading files, the JSON-Schema validator and the rich console are outside
  the model. Their outcomes arrive as parameters: a `Loaded` value, a
  `Verdict`, and a set of existing file paths.

Two consequences of the code are worth stating:

- `populate_by_name` is declared on `WorkflowSchema` only
  (models.py:117-119), so nested records accept their aliases only. A nested
  Python name such as `value_key` is an unknown key, which is ignored
  (`DecodeProperties.ValueKeyReadUnderAliasOnly`).
- A document with an empty citation list, container type `"docker"`, no
  command-line and an input without an id is rejected
  (`DecodeProperties.LooseDocumentRejected`).

## Model

| member | source | states |
|---|---|---|
| JsonValues.Lookup | src/biomero_schema/models.py:107 | a field written under its alias is found under it, whatever else the object holds |
| JsonValues.LookupFindsAcceptedKey | src/biomero_schema/models.py:117-119 | a field is missing exactly when no key of the object is accepted for it; a found value sits under an accepted key |
| JsonValues.StringFieldRead | src/biomero_schema/models.py:7 | a required str field reads as a string only when that very string stands under one of its keys |
| JsonValues.Req | src/biomero_schema/models.py:105 | a required field succeeds iff it is given and its value reads; an absent one fails with Missing at the field's path; on success the value came from an accepted key |
| JsonValues.Opt | src/biomero_schema/models.py:108 | an optional field succeeds iff it is absent, null, or its value reads; absent or null decodes to None, and only then |
| JsonValues.AsString | src/biomero_schema/models.py:8 | a string field accepts exactly JSON strings, with their text |
| JsonValues.AsBool | src/biomero_schema/models.py:41 | a bool field accepts exactly JSON booleans, with their value |
| JsonValues.AsNumber | src/biomero_schema/models.py:42 | a float field accepts exactly JSON numbers, with their token |
| JsonValues.AsLiteral | src/biomero_schema/models.py:30 | a Literal field accepts exactly the strings spelled by a member of its domain, and yields that member |
| JsonValues.ListOf | src/biomero_schema/models.py:113 | a list field succeeds iff it is an array whose every item decodes at its index path, and then yields those items in order |
| JsonValues.AsStringList | src/biomero_schema/models.py:10 | a List[str] accepts exactly arrays of strings, keeping each string |
| JsonValues.ArrayOf | src/biomero_schema/models.py:108 | a list is written as an array holding each element's encoding, in order |
| JsonValues.OrNull | src/biomero_schema/models.py:108 | None is written as null; a present value as its encoding |
| JsonValues.ListRoundTrip | src/biomero_schema/models.py:108 | reading back a written list gives the list, when each element reads back |
| Models.ContainerKind.Name | src/biomero_schema/models.py:30 | each container type has a spelling in ["oci", "singularity"] that reads back as itself |
| Models.ContainerKindNamed | src/biomero_schema/models.py:30 | a string names a container type iff it is one of the two spellings |
| Models.ParameterType.Name | src/biomero_schema/models.py:76 | each input type has one of the nine spellings and reads back as itself |
| Models.ParameterTypeNamed | src/biomero_schema/models.py:76 | a string names an input type iff it is one of the nine spellings |
| Models.OutputType.Name | src/biomero_schema/models.py:93 | each output type is "Number" or "String" and reads back as itself |
| Models.OutputTypeNamed | src/biomero_schema/models.py:93 | a string names an output type iff it is "Number" or "String" |
| Models.ImageSubType.Name | src/biomero_schema/models.py:64 | each image sub-type has one of the five spellings and reads back as itself |
| Models.ImageSubTypeNamed | src/biomero_schema/models.py:64 | a string names an image sub-type iff it is one of the five spellings |
| Models.ImageFormat.Name | src/biomero_schema/models.py:65 | each image format has one of the six spellings and reads back as itself |
| Models.ImageFormatNamed | src/biomero_schema/models.py:65 | a string names an image format iff it is one of the six spellings |
| Models.ArrayFormat.Name | src/biomero_schema/models.py:70 | each array format is "npy" or "npz" and reads back as itself |
| Models.ArrayFormatNamed | src/biomero_schema/models.py:70 | a string names an array format iff it is "npy" or "npz" |
| Decoder.AsContainerKind | src/biomero_schema/models.py:30 | the container type is accepted iff it is a string in the Literal domain, and the result is spelled as the input |
| Decoder.AsParameterType | src/biomero_schema/models.py:76 | an input type is accepted iff it is one of its nine Literal strings, and the result is spelled as the input |
| Decoder.AsOutputType | src/biomero_schema/models.py:93 | an output type is accepted iff it is "Number" or "String", and the result is spelled as the input |
| Decoder.AsImageSubType | src/biomero_schema/models.py:64 | an image sub-type is accepted iff it is in its Literal domain, and the result is spelled as the input |
| Decoder.AsImageFormat | src/biomero_schema/models.py:65 | an image format is accepted iff it is in its Literal domain, and the result is spelled as the input |
| Decoder.AsArrayFormat | src/biomero_schema/models.py:70 | an array format is accepted iff it is "npy" or "npz", and the result is spelled as the input |
| Decoder.AsDefaultValue | src/biomero_schema/models.py:81 | a default value is accepted iff it is a string, a number or a boolean |
| Decoder.AsCapability | src/biomero_schema/models.py:36 | a CUDA capability is a single string or a list of strings, and nothing else; a string stays a single minimum |
| Decoder.DecodeAuthor | src/biomero_schema/models.py:6-10 | decodes iff it is an object and every field reads (required ones given and valid, optional ones absent, null or valid); then its name is the string under "name", and email and affiliations are each None iff absent or null and otherwise the value read under that key |
| Decoder.DecodeInstitution | src/biomero_schema/models.py:13-16 | decodes iff it is an object and every field reads (required ones given and valid, optional ones absent, null or valid); then its id is the string under "id", and its name is None iff absent or null and otherwise the string given |
| Decoder.DecodeCitation | src/biomero_schema/models.py:19-24 | decodes iff it is an object and every field reads (required ones given and valid, optional ones absent, null or valid); then its name and license are the strings given, and doi and description are each None iff absent or null and otherwise the string given |
| Decoder.DecodeContainerImage | src/biomero_schema/models.py:27-30 | a container image decodes iff it is an object with a string "image" and a "type" in the Literal domain, and keeps both |
| Decoder.DecodeCudaRequirements | src/biomero_schema/models.py:33-36 | decodes iff it is an object and every field reads (required ones given and valid, optional ones absent, null or valid); the memory minimum and the compute capability are each None iff absent or null and otherwise the value read under the alias |
| Decoder.DecodeResources | src/biomero_schema/models.py:39-47 | decodes iff it is an object and every field reads (required ones given and valid, optional ones absent, null or valid); each of the seven (networking, ram-min, cores-min, gpu, cuda-requirements, cpuAVX, cpuAVX2) is None iff absent or null and otherwise the value read under its alias |
| Decoder.BuildResources | src/biomero_schema/models.py:39-47 | resources are built iff every field decoded, from exactly those values |
| Decoder.DecodeConfiguration | src/biomero_schema/models.py:50-54 | decodes iff it is an object and every field reads (required ones given and valid, optional ones absent, null or valid); input_folder, output_folder and resources are each None iff absent or null and otherwise the value read under that key |
| Decoder.DecodeFileParameter | src/biomero_schema/models.py:57-59 | a file parameter decodes iff its object has a string "format", which it keeps |
| Decoder.DecodeImageParameter | src/biomero_schema/models.py:62-65 | an image parameter decodes iff "sub-type" and "format" are both in their Literal domains; its sub-type and format are the members spelled there |
| Decoder.DecodeArrayParameter | src/biomero_schema/models.py:68-70 | an array parameter decodes iff its "format" is "npy" or "npz"; its format is the member spelled there |
| Decoder.DecodeParameter | src/biomero_schema/models.py:73-87 | decodes iff it is an object and every field reads (required ones given and valid, optional ones absent, null or valid); then its id and type are the ones given; each of its nine optional fields is None iff absent or null and otherwise the value read under its alias; format and sub-type are free strings |
| Decoder.BuildParameter | src/biomero_schema/models.py:73-87 | an input is built iff each of its eleven fields decoded, from exactly those values |
| Decoder.DecodeOutputParameter | src/biomero_schema/models.py:90-100 | decodes iff it is an object and every field reads (required ones given and valid, optional ones absent, null or valid); then its id and type are the ones given, the type being "Number" or "String"; each of its seven optional fields is None iff absent or null and otherwise the value read under its alias |
| Decoder.BuildOutputParameter | src/biomero_schema/models.py:90-100 | an output is built iff each of its nine fields decoded, from exactly those values |
| Decoder.AsAuthors | src/biomero_schema/models.py:108 | an author list decodes iff it is an array whose every item decodes as an author at its index, and yields those authors in order |
| Decoder.AsInstitutions | src/biomero_schema/models.py:109 | an institution list decodes iff it is an array whose every item decodes as an institution at its index, and yields them in order |
| Decoder.AsParameters | src/biomero_schema/models.py:113 | an input list decodes iff it is an array whose every item decodes as an input at its index, and yields them in order |
| Decoder.AsOutputParameters | src/biomero_schema/models.py:114 | an output list decodes iff it is an array whose every item decodes as an output at its index, and yields them in order |
| Decoder.AsCitations | src/biomero_schema/models.py:110 | a citation list decodes iff it is a non-empty array whose every item decodes as a citation at its index, and yields them in order; an empty array fails with TooShort(1) at the field's path |
| Decoder.DecodeWorkflow | src/biomero_schema/models.py:103-119 | a workflow decodes iff the document is an object and each of the eleven fields reads (WorkflowFieldsRead); then every field of the workflow is what its key reads as (WorkflowFieldsHold), all seven required fields are present and it has at least one citation |
| Decoder.BuildWorkflow | src/biomero_schema/models.py:103-115 | a workflow is built iff each of its eleven fields decoded, from exactly those values |
| Decoder.Decode | src/schema_validator/cli.py:85 | model_validate: the document is accepted iff it is an object whose eleven fields all read; then each field of the workflow is what the document holds under its key, every required field is present and the workflow is valid |
| Encoder.EncodeDefaultValue | src/biomero_schema/models.py:81 | a default value is written as a JSON string, number or boolean exactly when it is one |
| Encoder.EncodeCapability | src/biomero_schema/models.py:36 | a single capability is written as a string, and a list as an array of the same length |
| Encoder.EncodeAuthor | src/biomero_schema/models.py:6-10 | an author is written as an object with exactly the keys name, email and affiliations |
| Encoder.EncodeInstitution | src/biomero_schema/models.py:13-16 | an institution is written as an object with exactly the keys id and name |
| Encoder.EncodeCitation | src/biomero_schema/models.py:19-24 | a citation is written as an object with exactly the keys name, doi, license and description |
| Encoder.EncodeContainerImage | src/biomero_schema/models.py:27-30 | a container image is written as an object with exactly the keys image and type |
| Encoder.EncodeCudaRequirements | src/biomero_schema/models.py:33-36 | CUDA requirements are written with exactly their two alias keys |
| Encoder.EncodeResources | src/biomero_schema/models.py:39-47 | resources are written as an object (its keys: ResourcesWrittenKeys) |
| Encoder.EncodeConfiguration | src/biomero_schema/models.py:50-54 | a configuration is written with exactly the keys input_folder, output_folder and resources |
| Encoder.EncodeFileParameter | src/biomero_schema/models.py:57-59 | a file parameter is written with the single key format |
| Encoder.EncodeImageParameter | src/biomero_schema/models.py:62-65 | an image parameter is written with exactly the keys sub-type and format |
| Encoder.EncodeArrayParameter | src/biomero_schema/models.py:68-70 | an array parameter is written with the single key format |
| Encoder.EncodeParameter | src/biomero_schema/models.py:73-87 | an input is written as an object (its keys: ParameterWrittenKeys) |
| Encoder.EncodeOutputParameter | src/biomero_schema/models.py:90-100 | an output is written as an object (its keys: OutputParameterWrittenKeys) |
| Encoder.EncodeByAlias | src/schema_validator/cli.py:91 | `model_dump_json(by_alias=True)` writes a workflow as an object (its keys: WorkflowWrittenKeys; its decoding: RoundTrip.WorkflowRoundTrip) |
| Encoder.WorkflowWrittenKeys | src/schema_validator/cli.py:91 | `--json` writes exactly the eleven workflow keys, aliased ones under their alias |
| Encoder.ParameterWrittenKeys | src/biomero_schema/models.py:73-87 | an input is written with exactly its eleven keys, aliased ones under their alias |
| Encoder.OutputParameterWrittenKeys | src/biomero_schema/models.py:90-100 | an output is written with exactly its nine keys, aliased ones under their alias |
| Encoder.ResourcesWrittenKeys | src/biomero_schema/models.py:39-47 | resources are written with exactly their seven keys, aliased ones under their alias |
| Encoder.WorkflowEntries | src/schema_validator/cli.py:91 | proof helper for the workflow round trip: each workflow field is written under the key the decoder reads it from |
| Encoder.WorkflowEntriesHead | src/schema_validator/cli.py:91 | proof helper: the first five workflow fields, as in WorkflowEntries |
| Encoder.WorkflowEntriesTail | src/schema_validator/cli.py:91 | proof helper: the last six workflow fields, as in WorkflowEntries |
| Encoder.ParameterEntries | src/biomero_schema/models.py:73-87 | proof helper for the input round trip: each input field is written under the key the decoder reads it from |
| Encoder.ParameterEntriesHead | src/biomero_schema/models.py:73-87 | proof helper: the first input fields, as in ParameterEntries |
| Encoder.ParameterEntriesTail | src/biomero_schema/models.py:73-87 | proof helper: the remaining input fields, as in ParameterEntries |
| Encoder.OutputParameterEntries | src/biomero_schema/models.py:90-100 | proof helper for the output round trip: each output field is written under the key the decoder reads it from |
| Encoder.ResourcesEntries | src/biomero_schema/models.py:39-47 | proof helper for the resources round trip: each resources field is written under the key the decoder reads it from |
| JsonValues.OptWritten | src/biomero_schema/models.py:108 | an optional field written as its value or null reads back as that value |
| JsonValues.ReqWritten | src/biomero_schema/models.py:105 | a required field written under its key reads back as its value |
| RoundTrip.TextListRoundTrip | src/biomero_schema/models.py:10 | a list of strings reads back as itself |
| RoundTrip.AuthorRoundTrip | src/biomero_schema/models.py:6-10 | decoding an encoded author gives the author |
| RoundTrip.InstitutionRoundTrip | src/biomero_schema/models.py:13-16 | decoding an encoded institution gives the institution |
| RoundTrip.CitationRoundTrip | src/biomero_schema/models.py:19-24 | decoding an encoded citation gives the citation |
| RoundTrip.ContainerImageRoundTrip | src/biomero_schema/models.py:27-30 | decoding an encoded container image gives the container image |
| RoundTrip.CapabilityRoundTrip | src/biomero_schema/models.py:36 | a CUDA capability reads back as the same single value or list |
| RoundTrip.CudaRequirementsRoundTrip | src/biomero_schema/models.py:33-36 | decoding encoded CUDA requirements gives them back |
| RoundTrip.ResourceFlagsWritten | src/biomero_schema/models.py:41-47 | the four resource flags read back as written |
| RoundTrip.ResourcesRead | src/biomero_schema/models.py:39-47 | an object holding the seven resource fields under their aliases decodes to those resources |
| RoundTrip.ResourcesRoundTrip | src/biomero_schema/models.py:39-47 | decoding encoded resources gives the resources |
| RoundTrip.ConfigurationRoundTrip | src/biomero_schema/models.py:50-54 | decoding an encoded configuration gives the configuration |
| RoundTrip.FileParameterRoundTrip | src/biomero_schema/models.py:57-59 | decoding an encoded file parameter gives it back |
| RoundTrip.ImageParameterRoundTrip | src/biomero_schema/models.py:62-65 | decoding an encoded image parameter gives it back |
| RoundTrip.ArrayParameterRoundTrip | src/biomero_schema/models.py:68-70 | decoding an encoded array parameter gives it back |
| RoundTrip.MetadataWritten | src/biomero_schema/models.py:77-80 | the name, description, value key and command-line flag shared by inputs and outputs read back as written |
| RoundTrip.FlagsWritten | src/biomero_schema/models.py:81-83 | the default value, optional and set-by-server fields read back as written |
| RoundTrip.ParameterFieldsRead | src/biomero_schema/models.py:73-87 | each of the eleven input fields reads back from the encoded object |
| RoundTrip.ParameterRead | src/biomero_schema/models.py:73-87 | an object holding an input's fields under their aliases decodes to that input |
| RoundTrip.ParameterRoundTrip | src/biomero_schema/models.py:73-87 | decoding an encoded input gives the input |
| RoundTrip.OutputParameterRead | src/biomero_schema/models.py:90-100 | an object holding an output's fields under their aliases decodes to that output |
| RoundTrip.OutputParameterRoundTrip | src/biomero_schema/models.py:90-100 | decoding an encoded output gives the output |
| RoundTrip.AuthorsRoundTrip | src/biomero_schema/models.py:108 | an encoded author list reads back as itself |
| RoundTrip.InstitutionsRoundTrip | src/biomero_schema/models.py:109 | an encoded institution list reads back as itself |
| RoundTrip.CitationsRoundTrip | src/biomero_schema/models.py:110 | a non-empty encoded citation list reads back as itself |
| RoundTrip.ParametersRoundTrip | src/biomero_schema/models.py:113 | an encoded input list reads back as itself |
| RoundTrip.OutputParametersRoundTrip | src/biomero_schema/models.py:114 | an encoded output list reads back as itself |
| RoundTrip.WorkflowOptionalsWritten | src/biomero_schema/models.py:108-114 | the four optional workflow fields read back as written |
| RoundTrip.WorkflowPartsWritten | src/biomero_schema/models.py:110-115 | citations, container image, inputs and command line read back as written |
| RoundTrip.WorkflowRead | src/biomero_schema/models.py:103-119 | an object holding a valid workflow's fields under their aliases decodes to that workflow |
| RoundTrip.WorkflowRoundTrip | src/schema_validator/cli.py:85-91 | decoding the alias-keyed dump of any workflow with at least one citation gives the workflow |
| RoundTrip.ReparseJsonOutput | src/schema_validator/cli.py:85-91 | the alias-keyed document that `--json` serialises decodes to the same workflow |
| DecodeProperties.DecodedTextsAreTheDocuments | src/biomero_schema/models.py:105-115 | for any accepted document, the decoded name, description, schema version and command line are the strings under their keys |
| DecodeProperties.DecodedAuthorsAreTheDocuments | src/biomero_schema/models.py:108 | for any accepted document, the authors are None iff absent or null, and otherwise the list read under "authors" |
| DecodeProperties.LookupIgnoresOtherKeys | src/biomero_schema/models.py:103-119 | adding a key that a field does not accept leaves that field's lookup unchanged |
| DecodeProperties.MissingRequiredFieldFails | src/biomero_schema/models.py:105-115 | a document lacking any one of the seven required fields, under either spelling, is rejected |
| DecodeProperties.EmptyCitationsRejected | src/biomero_schema/models.py:110 | a document whose citation list is empty is rejected |
| DecodeProperties.OutputTypedFileRejected | src/biomero_schema/models.py:93 | an output parameter of type "file" is rejected |
| DecodeProperties.WorkflowOptionalsDefaultToNone | src/biomero_schema/models.py:108-114 | authors, institutions, configuration and outputs are None exactly when absent or null |
| DecodeProperties.SameLookupSameField | src/biomero_schema/models.py:103-119 | a field's outcome depends only on what its lookup finds |
| DecodeProperties.WorkflowReadsOnlyItsFields | src/biomero_schema/models.py:103-119 | two objects that agree on the eleven workflow fields decode alike |
| DecodeProperties.WorkflowIgnoresUnknownKey | src/biomero_schema/models.py:103-119 | a key that no workflow field accepts does not change the outcome |
| DecodeProperties.SchemaVersionSameFields | src/biomero_schema/models.py:107 | "schema-version" and "schema_version" fill the same workflow field |
| DecodeProperties.ContainerImageSameFields | src/biomero_schema/models.py:111 | "container-image" and "container_image" fill the same workflow field |
| DecodeProperties.CommandLineSameFields | src/biomero_schema/models.py:115 | "command-line" and "command_line" fill the same workflow field |
| DecodeProperties.WorkflowAcceptsAliasOrName | src/biomero_schema/models.py:117-119 | by populate_by_name, the root record decodes alike whichever spelling of an aliased field is used |
| DecodeProperties.ParameterReadsOnlyItsFields | src/biomero_schema/models.py:73-87 | two objects that agree on the eleven input fields decode alike |
| DecodeProperties.ParameterIgnoresUnknownKey | src/biomero_schema/models.py:73-87 | a key that no input field accepts does not change the outcome |
| DecodeProperties.ParameterIgnoresPythonNames | src/biomero_schema/models.py:79-87 | an input ignores the Python names of its aliased fields, as it lacks populate_by_name |
| DecodeProperties.PythonNameUnknownToParameter | src/biomero_schema/models.py:79-87 | no input field accepts the Python name of an aliased field |
| DecodeProperties.FirstPythonNamesUnknown | src/biomero_schema/models.py:79-81 | no input field accepts "value_key", "command_line_flag" or "default_value" |
| DecodeProperties.ValueKeyReadUnderAliasOnly | src/biomero_schema/models.py:79 | a value key given as "value_key" leaves the input's value key None |
| DecodeProperties.InputFormatUnrestricted | src/biomero_schema/models.py:86 | an image input accepts any format string, as its format field is a plain str |
| DecodeProperties.ImageInputFields | src/biomero_schema/models.py:75-86 | the id, type and format of a small image input decode to the values given |
| DecodeProperties.StandaloneFormatRestricted | src/biomero_schema/models.py:62-70 | the standalone image and array parameter records reject a format outside their Literal domains |
| DecodeProperties.UnknownContainerTypeRejected | src/biomero_schema/models.py:30 | a document whose container type is outside ["oci", "singularity"] (say "docker") is rejected |
| DecodeProperties.CitationWithoutLicenseRejected | src/biomero_schema/models.py:23 | a document holding a citation without a license is rejected |
| DecodeProperties.InvalidInputRejected | src/biomero_schema/models.py:113 | a document holding an input that does not decode is rejected |
| DecodeProperties.FileTypedOutputRejected | src/biomero_schema/models.py:93 | a document holding an output typed "file" is rejected |
| DecodeProperties.InvalidConfigurationRejected | src/biomero_schema/models.py:112 | a document whose configuration is given, not null, and does not decode is rejected |
| DecodeProperties.EmailOfWrongKindRejected | src/biomero_schema/models.py:9 | an author whose email is given, not null and not a string is rejected |
| DecodeProperties.GpuOfWrongKindRejected | src/biomero_schema/models.py:44 | resources whose gpu flag is given, not null and not a boolean (say "maybe", 2 or []) are rejected |
| DecodeProperties.LooseDocumentRejected | src/biomero_schema/models.py:103-119 | a document with empty citations, container type "docker", no command line and an input without id is rejected |
| Decimal.DigitChar | src/schema_validator/cli.py:104 | the character written for a digit is a decimal digit with that value |
| Decimal.NatToString | src/schema_validator/cli.py:104 | str(n) is a non-empty string of digits with no leading zero |
| Decimal.DecimalRoundTrip | src/schema_validator/cli.py:104 | the digits written for n spell n |
| Decimal.NatToStringInjective | src/schema_validator/cli.py:104 | different counts print differently |
| Decimal.LeadingDigits | src/schema_validator/cli.py:104 | the leading digit run of a line is a digit-only prefix of it |
| Decimal.LeadingDigitsOf | src/schema_validator/cli.py:104 | digits followed by a non-digit have exactly those digits as their leading run |
| Decimal.CountReadsBack | src/schema_validator/cli.py:104-111 | a line "<n> <unit>" states the count n |
| Cli.SelectMode | src/schema_validator/cli.py:89-97 | `--json` wins over `--pretty`, which wins over the summary; each mode in exactly its case |
| Cli.Labels | src/schema_validator/cli.py:100-111 | the captions of a line list, one per line, in order |
| Cli.LabelsAppend | src/schema_validator/cli.py:100-111 | the captions of two line lists joined are the captions of each, joined |
| Cli.RenderValue | src/schema_validator/cli.py:100-111 | a field value is printed as itself; a count is printed so that its leading number reads back as the count |
| Cli.Render | src/schema_validator/cli.py:100-111 | a summary line starts with its caption and ": ", followed by exactly as many characters as the value's text |
| Cli.FixedEntries | src/schema_validator/cli.py:100-105 | the six unconditional summary lines come in the order name, description, schema version, container image, citations, inputs; the citations line counts the citations in citation(s), the inputs line the inputs in parameter(s) |
| Cli.CountLine | src/schema_validator/cli.py:106-111 | a conditional count line is present iff its list is present and non-empty, and then states that list's length |
| Cli.Summary | src/schema_validator/cli.py:99-111 | the summary lines are the six fixed ones followed by outputs, authors and institutions when listed (their counts and unit words: SummaryEntryCount) |
| Cli.FixedLinesPrinted | src/schema_validator/cli.py:100-103 | the first four lines print as "Name: ", "Description: ", "Schema Version: " and "Container Image: " followed by the field, the image with its type in parentheses |
| Cli.FixedCountLinesPrinted | src/schema_validator/cli.py:104-105 | the citations and inputs lines print as "Citations: <length> citation(s)" and "Inputs: <length> parameter(s)" |
| Cli.SummaryOpens | src/schema_validator/cli.py:100-103 | the summary starts with the workflow's name, description, schema version and container image with its type |
| Cli.SummaryEntryCount | src/schema_validator/cli.py:104-111 | a summary line about a list counts that list's length, in the unit word of its line: citation(s), parameter(s) for inputs and outputs, author(s), institution(s) |
| Cli.OptionalLineListed | src/schema_validator/cli.py:106-111 | a line with the outputs, authors or institutions caption is printed only when that list is present |
| Cli.SummaryCountsAreListLengths | src/schema_validator/cli.py:104-111 | every count in the summary is the length of the list it names, with that line's unit word |
| Cli.SummaryCountLinesPrinted | src/schema_validator/cli.py:104-111 | an outputs, authors or institutions line prints as "Outputs: <length> parameter(s)", "Authors: <length> author(s)" or "Institutions: <length> institution(s)" |
| Cli.SummaryCountsMatchLists | src/schema_validator/cli.py:104-111 | every printed count line reads back as the length of the list it names |
| Cli.OptionalLabelsListed | src/schema_validator/cli.py:106-111 | an outputs, authors or institutions caption is among the summary's captions iff that list is present and non-empty |
| Cli.ConditionalLinesShown | src/schema_validator/cli.py:106-111 | the summary shows the outputs, authors and institutions lines exactly when those lists are non-empty |
| Cli.Rendering | src/schema_validator/cli.py:89-111 | `--json` prints the alias-keyed dump; `--pretty` the heading and the object; otherwise the heading and the summary lines |
| Cli.Parse | src/schema_validator/cli.py:76-115 | parse announces the file and exits 0 iff the file loaded and decoded, then prints the success mark and the rendering; a file that did not load prints exactly its load error; a document that did not decode prints the parse error; failures exit 1 with nothing more |
| Cli.ParseFailurePrintsNoResult | src/schema_validator/cli.py:113-115 | a failed parse exits 1 and prints neither the success mark nor any rendering |
| Cli.ExactlyOneRendering | src/schema_validator/cli.py:89-111 | each mode prints its own rendering and none of the other two |
| Cli.LoadFailure | src/schema_validator/cli.py:33-38 | a load failure prints one line starting "Error: ": "File '<path>' not found" for a missing file, "Invalid JSON in '<path>': " and the decoder's detail for malformed JSON |
| Cli.SegmentText | src/schema_validator/cli.py:65 | str() of a key is the key; of an index, a digit string that reads back as the index |
| Cli.Join | src/schema_validator/cli.py:65 | `sep.join` of no parts is empty and of one part is that part; otherwise it starts with the first part and ends with the last |
| Cli.PathText | src/schema_validator/cli.py:65 | the printed path is empty for an empty path and the step's text for a one-step path; otherwise it starts with the first step's text and ends with the last's |
| Cli.JoinAppend | src/schema_validator/cli.py:65 | joining two non-empty lists puts one separator between their joins |
| Cli.PathTextExtends | src/schema_validator/cli.py:65 | a path one segment longer prints as the shorter path, " -> ", and the segment |
| Cli.ViolationLines | src/schema_validator/cli.py:61-66 | a violation prints the failure mark, the message, and the joined path only when the path is non-empty; the success mark is never among them |
| Cli.SchemaMissing | src/schema_validator/cli.py:21 | the missing-schema report is an error line beginning "Error: Schema file not found at " |
| Cli.SchemaPathAsWritten | src/schema_validator/cli.py:19 | as written, the schema path is the module file's own path with one more component |
| Cli.SchemaNeverFoundAsWritten | src/schema_validator/cli.py:19-22 | as written, the schema path never names an existing file, so validate always stops with schema not found |
| Cli.SchemaPath | src/schema_validator/cli.py:19 | corrected: "schema.json" in the module file's directory |
| Cli.SchemaFoundBesideModule | src/schema_validator/cli.py:19-22 | corrected: a schema next to the module is a legal installation distinct from the module |
| Cli.Validate | src/schema_validator/cli.py:48-69 | validate announces the file; exits 0 iff schema found, file loaded and verdict valid, printing exactly "✓ Validation successful!"; a missing schema, a load error, a violation and an invalid schema each print exactly their lines; any failure exits 1 without the success mark |

## Left out

- Reading files, `click` argument handling, `click.Path(exists=True)` and `--version`: the load outcome and the set of existing files are parameters.
- The JSON-Schema validator (`jsonschema.validate`): its verdict is a parameter, and schema.json itself is not part of this model.
- Rich console markup and colours, the indented JSON text of `--json` and the `pprint` layout of `--pretty`: the model keeps the document and the object printed, not their characters.
- Pydantic's lax coercions (numeric strings to numbers; the strings "true", "yes", "on", "1" and their negatives and the integers 0 and 1 to booleans; a float accepted by the union's order): kinds are matched strictly, so the model rejects those inputs where pydantic would coerce them.
- Pydantic's error message text, and its aggregation of all errors: the model reports the first failing field in declaration order with its path.
- Floating-point values: numbers are opaque tokens that are passed through unchanged, so `ram-min` and similar fields are not compared or rounded.
- Defaults written only in field descriptions (`Defaults to '/inputs'` and the like): pydantic does not apply them, and neither does the model.
- The uncaught exception of `json.load` on a malformed schema.json in `load_schema`: the model has no schema contents.
- The exception text printed after `Parsing failed:`: the model prints the decoder's `Error` value.
- Decoder.Decode: does not state which error is reported for a rejected document; the model reports the first failing field in declaration order, where pydantic lists every failing field, and only the error's kind, not its text, follows pydantic.
- Cli.Validate: uses the corrected schema location from the finding below, not the path as written.
- Cli.Parse: its exit status 0 iff the file loaded and decoded assumes printing cannot fail. In the code, rich interprets `[...]` in the printed strings as markup, so a workflow whose name is, say, `a[/b]` raises a markup error inside the `try` of cli.py:83-115 after "✓ Parsing successful!" has been printed, and the run exits 1. Rendering failures are not modelled.
- RoundTrip.ReparseJsonOutput: states that the serialised document decodes to the same workflow, not that the characters `console.print` writes do. The console wraps long lines at its width, replaces `:name:` emoji codes and interprets or rejects `[...]` markup in the JSON text.
- RoundTrip.WorkflowRoundTrip: numbers are opaque tokens here. `model_dump_json` writes a non-finite float such as `"ram-min": 1e400` (read as infinity) as `null`, so that document does not read back as the same workflow.

## Findings

| source | as written | input that shows it | evidently intended | confidence | as-written member | corrected member |
|---|---|---|---|---|---|---|
| src/schema_validator/cli.py:19 | `Path(__file__) / "schema.json"` appends the file name to the module file's own path | any installation: the module `.../schema_validator/cli.py` is a regular file, so `.../cli.py/schema.json` cannot exist and `validate` always prints "Schema file not found" and exits 1 | `Path(__file__).parent / "schema.json"`, the schema beside the module | not executed | Cli.SchemaNeverFoundAsWritten | Cli.SchemaFoundBesideModule |

=== FILE: cli.dfy ===
/**
 * The presentation logic of the `parse` and `validate` commands of
 * src/schema_validator/cli.py: which rendering `parse` prints, the default
 * summary, the failure report of `validate` with its document path, and the
 * exit status of each. File reading, the JSON-Schema validator and the rich
 * console are outside the model: what they produce arrives as parameters
 * (a Loaded outcome, a Verdict), and console markup is dropped.
 */
module Cli {
  import opened Wrappers
  import opened JsonValues
  import opened Models
  import opened Decoder
  import opened Encoder
  import opened Decimal

  // ---- Output mode ----

  datatype OutputMode = JsonMode | PrettyMode | SummaryMode

  /** `--json` wins over `--pretty`, which wins over the default summary. */
  function SelectMode(pretty: bool, outputJson: bool): (m: OutputMode)
    ensures m == JsonMode <==> outputJson
    ensures m == PrettyMode <==> !outputJson && pretty
    ensures m == SummaryMode <==> !outputJson && !pretty
  {
    if outputJson then JsonMode else if pretty then PrettyMode else SummaryMode
  }

  // ---- Console lines ----

  /**
   * One printed item. Heading is a bold line printed after an empty line;
   * JsonDump is the indented JSON text of a document and ObjectDump the
   * rich pretty-print of a workflow (their layout is library formatting);
   * ParseFailed carries the validation error whose message is printed.
   */
  datatype Line =
    | Text(s: string)
    | Heading(s: string)
    | JsonDump(doc: Json)
    | ObjectDump(w: WorkflowSchema)
    | ParseFailed(e: Error)

  datatype Report = Report(lines: seq<Line>, exitCode: int)

  /** What loading the input file gave: a document, or one of the two load errors. */
  datatype Loaded = Loaded(data: Json) | FileMissing | MalformedJson(detail: string)

  /** What the JSON-Schema validator concluded about the document. */
  datatype Verdict = Valid | Violation(message: string, path: Path) | SchemaInvalid(message: string)

  const ParsedMark := "\U{2713} Parsing successful!"
  const ValidatedMark := "\U{2713} Validation successful!"
  const ValidationFailedMark := "\U{2717} Validation failed:"
  const SummaryTitle := "Workflow Schema:"
  const PrettyTitle := "Parsed Workflow Object:"

  // ---- The default summary ----

  /** The label of a summary line. */
  datatype Label =
    | NameLine | DescriptionLine | SchemaVersionLine | ContainerImageLine | CitationsLine | InputsLine
    | OutputsLine | AuthorsLine | InstitutionsLine
  {
    /** The label as printed before the colon. */
    function Caption(): string {
      match this
      case NameLine => "Name"
      case DescriptionLine => "Description"
      case SchemaVersionLine => "Schema Version"
      case ContainerImageLine => "Container Image"
      case CitationsLine => "Citations"
      case InputsLine => "Inputs"
      case OutputsLine => "Outputs"
      case AuthorsLine => "Authors"
      case InstitutionsLine => "Institutions"
    }
  }

  /** What a count line counts, with the word printed after the number. */
  datatype Unit = CitationUnit | ParameterUnit | AuthorUnit | InstitutionUnit
  {
    function Word(): string {
      match this
      case CitationUnit => "citation(s)"
      case ParameterUnit => "parameter(s)"
      case AuthorUnit => "author(s)"
      case InstitutionUnit => "institution(s)"
    }
  }

  /** The value after the colon: a text field, the container image with its type, or a list's length. */
  datatype Value = Plain(s: string) | Image(image: string, kind: ContainerKind) | Count(n: nat, unit: Unit)

  /** The text after the colon; a count is written as str(n), a space and the unit word. */
  function RenderValue(v: Value): (t: string)
    ensures v.Plain? ==> t == v.s
    ensures v.Count? ==> LeadingCount(t) == v.n
  {
    match v
    case Plain(s) => s
    case Image(image, kind) => image + " (" + kind.Name() + ")"
    case Count(n, unit) =>
      CountReadsBack(n, unit.Word());
      NatToString(n) + " " + unit.Word()
  }

  /** A summary line "<label>: <value>". */
  datatype Entry = Entry(key: Label, value: Value)

  /** A summary line: the caption and ": " come first, and the value's text fills the rest. */
  function Render(e: Entry): (line: string)
    ensures e.key.Caption() + ": " <= line
    ensures |line| == |e.key.Caption()| + 2 + |RenderValue(e.value)|
  {
    e.key.Caption() + ": " + RenderValue(e.value)
  }

  /** Python truthiness of an Optional list: present and non-empty. */
  predicate Listed<T>(xs: Option<seq<T>>) {
    xs.Some? && |xs.value| > 0
  }

  const FixedLabels: seq<Label> :=
    [NameLine, DescriptionLine, SchemaVersionLine, ContainerImageLine, CitationsLine, InputsLine]

  /** The labels of the conditional lines of a workflow's summary, in printing order. */
  function OptionalLabels(w: WorkflowSchema): seq<Label> {
    (if Listed(w.outputs) then [OutputsLine] else [])
    + (if Listed(w.authors) then [AuthorsLine] else [])
    + (if Listed(w.institutions) then [InstitutionsLine] else [])
  }

  /** The length of the list a count line reports on, the reference the printed counts are checked against. */
  function ListLength(w: WorkflowSchema, l: Label): Option<nat> {
    match l
    case CitationsLine => Some(|w.citations|)
    case InputsLine => Some(|w.inputs|)
    case OutputsLine => if w.outputs.Some? then Some(|w.outputs.value|) else None
    case AuthorsLine => if w.authors.Some? then Some(|w.authors.value|) else None
    case InstitutionsLine => if w.institutions.Some? then Some(|w.institutions.value|) else None
    case _ => None
  }

  function Labels(es: seq<Entry>): (ls: seq<Label>)
    ensures |ls| == |es| && forall i :: 0 <= i < |es| ==> ls[i] == es[i].key
  {
    seq(|es|, i requires 0 <= i < |es| => es[i].key)
  }

  lemma LabelsAppend(a: seq<Entry>, b: seq<Entry>)
    ensures Labels(a + b) == Labels(a) + Labels(b)
  {
  }

  /** The six lines every summary prints. */
  function FixedEntries(w: WorkflowSchema): (es: seq<Entry>)
    ensures Labels(es) == FixedLabels
    ensures es[4] == Entry(CitationsLine, Count(|w.citations|, CitationUnit))
    ensures es[5] == Entry(InputsLine, Count(|w.inputs|, ParameterUnit))
  {
    [ Entry(NameLine, Plain(w.name)),
      Entry(DescriptionLine, Plain(w.description)),
      Entry(SchemaVersionLine, Plain(w.schemaVersion)),
      Entry(ContainerImageLine, Image(w.containerImage.image, w.containerImage.kind)),
      Entry(CitationsLine, Count(|w.citations|, CitationUnit)),
      Entry(InputsLine, Count(|w.inputs|, ParameterUnit)) ]
  }

  /** The count line for an Optional list, printed only when the list is present and non-empty. */
  function CountLine<T>(l: Label, xs: Option<seq<T>>, unit: Unit): (es: seq<Entry>)
    ensures Labels(es) == if Listed(xs) then [l] else []
    ensures forall e :: e in es ==> e == Entry(l, Count(|xs.value|, unit))
  {
    if Listed(xs) then [Entry(l, Count(|xs.value|, unit))] else []
  }

  /** The lines the default rendering prints under its heading. */
  function Summary(w: WorkflowSchema): (es: seq<Entry>)
    ensures Labels(es) == FixedLabels + OptionalLabels(w)
  {
    LabelsAppend(FixedEntries(w), OptionalEntries(w));
    FixedEntries(w) + OptionalEntries(w)
  }

  /** The count lines that follow the six fixed lines. */
  function OptionalEntries(w: WorkflowSchema): (es: seq<Entry>)
    ensures Labels(es) == OptionalLabels(w)
  {
    var outputs := CountLine(OutputsLine, w.outputs, ParameterUnit);
    var authors := CountLine(AuthorsLine, w.authors, AuthorUnit);
    var institutions := CountLine(InstitutionsLine, w.institutions, InstitutionUnit);
    LabelsAppend(outputs, authors);
    LabelsAppend(outputs + authors, institutions);
    outputs + authors + institutions
  }

  /** The first four lines give the name, description, schema version and container image, in that order. */
  lemma SummaryOpens(w: WorkflowSchema)
    ensures |Summary(w)| >= 6
    ensures Summary(w)[0] == Entry(NameLine, Plain(w.name))
    ensures Summary(w)[1] == Entry(DescriptionLine, Plain(w.description))
    ensures Summary(w)[2] == Entry(SchemaVersionLine, Plain(w.schemaVersion))
    ensures Summary(w)[3] == Entry(ContainerImageLine, Image(w.containerImage.image, w.containerImage.kind))
  {
    var fixed := FixedEntries(w);
    assert Summary(w) == fixed + (Summary(w)[6..]);
  }

  /** The first four lines as printed: each caption, a colon, and the field or the image with its type. */
  lemma {:induction false} FixedLinesPrinted(w: WorkflowSchema)
    ensures |Summary(w)| >= 6
    ensures Render(Summary(w)[0]) == "Name: " + w.name
    ensures Render(Summary(w)[1]) == "Description: " + w.description
    ensures Render(Summary(w)[2]) == "Schema Version: " + w.schemaVersion
    ensures Render(Summary(w)[3]) == "Container Image: " + w.containerImage.image + " (" + w.containerImage.kind.Name() + ")"
  {
    SummaryOpens(w);
  }

  /** The citations and inputs lines as printed: the caption, the list's length and that line's unit word. */
  lemma {:induction false} FixedCountLinesPrinted(w: WorkflowSchema)
    ensures |Summary(w)| >= 6
    ensures Render(Summary(w)[4]) == "Citations" + ": " + NatToString(|w.citations|) + " " + "citation(s)"
    ensures Render(Summary(w)[5]) == "Inputs" + ": " + NatToString(|w.inputs|) + " " + "parameter(s)"
  {
    var fixed := FixedEntries(w);
    assert Summary(w)[4] == fixed[4] && Summary(w)[5] == fixed[5];
    CountEntryPrinted(fixed[4], "Citations", |w.citations|, "citation(s)");
    CountEntryPrinted(fixed[5], "Inputs", |w.inputs|, "parameter(s)");
  }

  /** The word printed after each count, line by line. */
  function CountWord(l: Label): string {
    match l
    case CitationsLine => "citation(s)"
    case InputsLine => "parameter(s)"
    case OutputsLine => "parameter(s)"
    case AuthorsLine => "author(s)"
    case InstitutionsLine => "institution(s)"
    case _ => ""
  }

  /** A summary line that reports on a list gives that list's length and that line's unit word. */
  lemma {:induction false} SummaryEntryCount(w: WorkflowSchema, e: Entry)
    requires e in Summary(w) && ListLength(w, e.key).Some?
    ensures e.value.Count? && e.value.n == ListLength(w, e.key).value && e.value.unit.Word() == CountWord(e.key)
  {
    if e in FixedEntries(w) {
      FixedEntryCount(w, e);
    } else {
      OptionalEntryCount(w, e);
    }
  }

  /** Each conditional line counts its own list, with its own unit word. */
  lemma {:induction false} OptionalEntryCount(w: WorkflowSchema, e: Entry)
    requires e in OptionalEntries(w)
    ensures ListLength(w, e.key).Some?
    ensures e.value.Count? && e.value.n == ListLength(w, e.key).value && e.value.unit.Word() == CountWord(e.key)
  {
    var outputs := CountLine(OutputsLine, w.outputs, ParameterUnit);
    var authors := CountLine(AuthorsLine, w.authors, AuthorUnit);
    var institutions := CountLine(InstitutionsLine, w.institutions, InstitutionUnit);
    assert OptionalEntries(w) == outputs + authors + institutions;
    if e in outputs {
      assert e == Entry(OutputsLine, Count(|w.outputs.value|, ParameterUnit));
    } else if e in authors {
      assert e == Entry(AuthorsLine, Count(|w.authors.value|, AuthorUnit));
    } else {
      assert e == Entry(InstitutionsLine, Count(|w.institutions.value|, InstitutionUnit));
    }
  }

  /** Of the six fixed lines, the citations and inputs lines report on a list. */
  lemma {:induction false} FixedEntryCount(w: WorkflowSchema, e: Entry)
    requires e in FixedEntries(w) && ListLength(w, e.key).Some?
    ensures e.value.Count? && e.value.n == ListLength(w, e.key).value && e.value.unit.Word() == CountWord(e.key)
  {
    var fixed := FixedEntries(w);
    var i :| 0 <= i < |fixed| && fixed[i] == e;
    assert Labels(fixed)[i] == e.key;
    assert i == 4 || i == 5;
  }

  /** Every count the summary prints is a count of the list its label names, with that line's unit word. */
  lemma {:induction false} SummaryCountsAreListLengths(w: WorkflowSchema)
    ensures forall e :: e in Summary(w) && ListLength(w, e.key).Some? ==>
      e.value.Count? && e.value.n == ListLength(w, e.key).value && e.value.unit.Word() == CountWord(e.key)
  {
    forall e | e in Summary(w) && ListLength(w, e.key).Some?
      ensures e.value.Count? && e.value.n == ListLength(w, e.key).value && e.value.unit.Word() == CountWord(e.key)
    {
      SummaryEntryCount(w, e);
    }
  }

  /** Every count the summary prints reads back as the length of the list it names. */
  lemma {:induction false} SummaryCountsMatchLists(w: WorkflowSchema)
    ensures forall e :: e in Summary(w) && ListLength(w, e.key).Some? ==>
      LeadingCount(RenderValue(e.value)) == ListLength(w, e.key).value
  {
    SummaryCountsAreListLengths(w);
  }

  /** The outputs, authors and institutions lines as printed: the caption, the list's length and the unit word. */
  lemma {:induction false} SummaryCountLinesPrinted(w: WorkflowSchema)
    ensures forall e :: e in Summary(w) && e.key == OutputsLine ==>
      w.outputs.Some? && Render(e) == "Outputs" + ": " + NatToString(|w.outputs.value|) + " " + "parameter(s)"
    ensures forall e :: e in Summary(w) && e.key == AuthorsLine ==>
      w.authors.Some? && Render(e) == "Authors" + ": " + NatToString(|w.authors.value|) + " " + "author(s)"
    ensures forall e :: e in Summary(w) && e.key == InstitutionsLine ==>
      w.institutions.Some? && Render(e) == "Institutions" + ": " + NatToString(|w.institutions.value|) + " " + "institution(s)"
  {
    forall e | e in Summary(w) && (e.key == OutputsLine || e.key == AuthorsLine || e.key == InstitutionsLine)
      ensures ListLength(w, e.key).Some?
      ensures Render(e) == e.key.Caption() + ": " + NatToString(ListLength(w, e.key).value) + " " + CountWord(e.key)
    {
      OptionalLineListed(w, e);
      SummaryEntryCount(w, e);
      CountEntryPrinted(e, e.key.Caption(), ListLength(w, e.key).value, CountWord(e.key));
    }
  }

  /** A summary line with a conditional label comes from the conditional lines, so its list is present. */
  lemma {:induction false} OptionalLineListed(w: WorkflowSchema, e: Entry)
    requires e in Summary(w) && (e.key == OutputsLine || e.key == AuthorsLine || e.key == InstitutionsLine)
    ensures ListLength(w, e.key).Some?
  {
    assert e !in FixedEntries(w);
    OptionalEntryCount(w, e);
  }

  /** A count entry is printed as its caption, its count and its unit word. */
  lemma {:induction false} CountEntryPrinted(e: Entry, caption: string, n: nat, word: string)
    requires e.key.Caption() == caption && e.value.Count? && e.value.n == n && e.value.unit.Word() == word
    ensures Render(e) == caption + ": " + NatToString(n) + " " + word
  {
    assert RenderValue(e.value) == NatToString(n) + " " + word;
  }

  /** The conditional labels are exactly those whose list is present and non-empty; no fixed label is one of them. */
  lemma {:induction false} OptionalLabelsListed(w: WorkflowSchema)
    ensures OutputsLine in FixedLabels + OptionalLabels(w) <==> Listed(w.outputs)
    ensures AuthorsLine in FixedLabels + OptionalLabels(w) <==> Listed(w.authors)
    ensures InstitutionsLine in FixedLabels + OptionalLabels(w) <==> Listed(w.institutions)
  {
    assert OutputsLine !in FixedLabels && AuthorsLine !in FixedLabels && InstitutionsLine !in FixedLabels;
  }

  /** Outputs, Authors and Institutions lines appear exactly when their list is present and non-empty. */
  lemma {:induction false} ConditionalLinesShown(w: WorkflowSchema)
    ensures OutputsLine in Labels(Summary(w)) <==> Listed(w.outputs)
    ensures AuthorsLine in Labels(Summary(w)) <==> Listed(w.authors)
    ensures InstitutionsLine in Labels(Summary(w)) <==> Listed(w.institutions)
  {
    OptionalLabelsListed(w);
  }

  // ---- Rendering a parsed workflow ----

  function Rendering(w: WorkflowSchema, mode: OutputMode): (ls: seq<Line>)
    ensures mode == JsonMode ==> ls == [JsonDump(EncodeByAlias(w))]
    ensures mode == PrettyMode ==> ls == [Heading(PrettyTitle), ObjectDump(w)]
    ensures mode == SummaryMode ==>
      (|ls| == 1 + |Summary(w)| && ls[0] == Heading(SummaryTitle)
       && forall i :: 0 <= i < |Summary(w)| ==> ls[i + 1] == Text(Render(Summary(w)[i])))
  {
    match mode
    case JsonMode => [JsonDump(EncodeByAlias(w))]
    case PrettyMode => [Heading(PrettyTitle), ObjectDump(w)]
    case SummaryMode => [Heading(SummaryTitle)] + SummaryLines(Summary(w))
  }

  /** One printed text line per summary entry, in order. */
  function SummaryLines(es: seq<Entry>): (ls: seq<Line>)
    ensures |ls| == |es| && forall i :: 0 <= i < |es| ==> ls[i] == Text(Render(es[i]))
    ensures forall l :: l in ls ==> l.Text?
  {
    seq(|es|, i requires 0 <= i < |es| => Text(Render(es[i])))
  }

  /** The report of a failed load, printed by load_json_file before exiting with status 1. */
  function LoadFailure(jsonFile: string, loaded: Loaded): (l: Line)
    requires !loaded.Loaded?
    ensures l.Text? && "Error: " <= l.s
    ensures loaded.FileMissing? ==> l.s == "Error: File '" + jsonFile + "' not found"
    ensures loaded.MalformedJson? ==>
      "Error: Invalid JSON in '" + jsonFile + "': " <= l.s
      && |loaded.detail| <= |l.s| && l.s[|l.s| - |loaded.detail|..] == loaded.detail
  {
    match loaded
    case FileMissing => Text("Error: File '" + jsonFile + "' not found")
    case MalformedJson(detail) => Text("Error: Invalid JSON in '" + jsonFile + "': " + detail)
  }

  /** The `parse` command. */
  function Parse(jsonFile: string, loaded: Loaded, pretty: bool, outputJson: bool): (r: Report)
    ensures |r.lines| >= 2 && r.lines[0] == Text("Parsing " + jsonFile + "...")
    ensures r.exitCode == 0 <==> loaded.Loaded? && Decode(loaded.data).Success?
    ensures r.exitCode == 0 ==>
      r.lines == [r.lines[0], Text(ParsedMark)] + Rendering(Decode(loaded.data).value, SelectMode(pretty, outputJson))
    ensures r.exitCode != 0 ==> r.exitCode == 1 && |r.lines| == 2
    ensures loaded.Loaded? && Decode(loaded.data).Failure? ==> r.lines[1] == ParseFailed(Decode(loaded.data).error)
    ensures !loaded.Loaded? ==> r.lines == [r.lines[0], LoadFailure(jsonFile, loaded)]
  {
    var start := Text("Parsing " + jsonFile + "...");
    match loaded
    case Loaded(data) =>
      (match Decode(data)
       case Success(w) => Report([start, Text(ParsedMark)] + Rendering(w, SelectMode(pretty, outputJson)), 0)
       case Failure(e) => Report([start, ParseFailed(e)], 1))
    case _ => Report([start, LoadFailure(jsonFile, loaded)], 1)
  }

  /** A failed parse prints neither the success line nor any rendering. */
  lemma ParseFailurePrintsNoResult(jsonFile: string, loaded: Loaded, pretty: bool, outputJson: bool)
    requires !(loaded.Loaded? && Decode(loaded.data).Success?)
    ensures Parse(jsonFile, loaded, pretty, outputJson).exitCode == 1
    ensures forall l :: l in Parse(jsonFile, loaded, pretty, outputJson).lines ==>
      l != Text(ParsedMark) && !l.Heading? && !l.JsonDump? && !l.ObjectDump?
  {
    var r := Parse(jsonFile, loaded, pretty, outputJson);
    assert r.lines[0].s[0] == 'P' != ParsedMark[0];
  }

  /** A successful parse prints exactly one of the three renderings. */
  lemma ExactlyOneRendering(w: WorkflowSchema, mode: OutputMode)
    ensures JsonDump(EncodeByAlias(w)) in Rendering(w, mode) <==> mode == JsonMode
    ensures ObjectDump(w) in Rendering(w, mode) <==> mode == PrettyMode
    ensures Heading(SummaryTitle) in Rendering(w, mode) <==> mode == SummaryMode
  {
    match mode
    case JsonMode => JsonRenderingShape(w);
    case PrettyMode => PrettyRenderingShape(w);
    case SummaryMode => SummaryRenderingShape(w);
  }

  /** The `--json` rendering is the alias-keyed document alone. */
  lemma {:induction false} JsonRenderingShape(w: WorkflowSchema)
    ensures Rendering(w, JsonMode) == [JsonDump(EncodeByAlias(w))]
  {
  }

  /** The `--pretty` rendering is its heading and the object dump. */
  lemma {:induction false} PrettyRenderingShape(w: WorkflowSchema)
    ensures Rendering(w, PrettyMode) == [Heading(PrettyTitle), ObjectDump(w)]
    ensures PrettyTitle != SummaryTitle
  {
  }

  /** The summary rendering is its heading followed by text lines only. */
  lemma {:induction false} SummaryRenderingShape(w: WorkflowSchema)
    ensures Heading(SummaryTitle) in Rendering(w, SummaryMode)
    ensures forall l :: l in Rendering(w, SummaryMode) ==> l.Text? || l == Heading(SummaryTitle)
  {
    var lines := SummaryLines(Summary(w));
    assert Rendering(w, SummaryMode) == [Heading(SummaryTitle)] + lines;
    forall l | l in [Heading(SummaryTitle)] + lines
      ensures l.Text? || l == Heading(SummaryTitle)
    {
      assert l == Heading(SummaryTitle) || l in lines;
    }
  }

  // ---- The validation failure report ----

  /** str() of one step of a document path. */
  function SegmentText(s: Segment): (t: string)
    ensures s.Key? ==> t == s.key
    ensures s.Index? ==> IsDigits(t) && DecimalValue(t) == s.index
  {
    match s
    case Key(k) => k
    case Index(i) =>
      DecimalRoundTrip(i);
      NatToString(i)
  }

  /** `sep.join(parts)`. */
  function Join(parts: seq<string>, sep: string): (r: string)
    ensures |parts| == 0 ==> r == ""
    ensures |parts| == 1 ==> r == parts[0]
    ensures |parts| > 0 ==> parts[0] <= r
    ensures |parts| > 0 ==> |r| >= |parts[|parts| - 1]| && r[|r| - |parts[|parts| - 1]|..] == parts[|parts| - 1]
  {
    if |parts| == 0 then ""
    else if |parts| == 1 then parts[0]
    else parts[0] + sep + Join(parts[1..], sep)
  }

  lemma {:induction false} JoinAppend(a: seq<string>, b: seq<string>, sep: string)
    requires |a| > 0 && |b| > 0
    ensures Join(a + b, sep) == Join(a, sep) + sep + Join(b, sep)
  {
    if |a| == 1 {
      assert (a + b)[1..] == b;
    } else {
      assert (a + b)[1..] == a[1..] + b;
      JoinAppend(a[1..], b, sep);
    }
  }

  /** `' -> '.join(str(p) for p in path)`. */
  function PathText(path: Path): (t: string)
    ensures |path| == 0 ==> t == ""
    ensures |path| == 1 ==> t == SegmentText(path[0])
    ensures |path| > 0 ==> SegmentText(path[0]) <= t
    ensures |path| > 0 ==> |t| >= |SegmentText(path[|path| - 1])| && t[|t| - |SegmentText(path[|path| - 1])|..] == SegmentText(path[|path| - 1])
  {
    Join(SegmentTexts(path), " -> ")
  }

  /** The str() of each step, in order. */
  function SegmentTexts(path: Path): (texts: seq<string>)
    ensures |texts| == |path| && forall i :: 0 <= i < |path| ==> texts[i] == SegmentText(path[i])
  {
    seq(|path|, i requires 0 <= i < |path| => SegmentText(path[i]))
  }

  /** The path text lists the steps in order, each step after the previous one and " -> ". */
  lemma {:induction false} PathTextExtends(path: Path, s: Segment)
    requires |path| > 0
    ensures PathText(path + [s]) == PathText(path) + " -> " + SegmentText(s)
  {
    var texts := SegmentTexts(path);
    assert SegmentTexts(path + [s]) == texts + [SegmentText(s)];
    JoinAppend(texts, [SegmentText(s)], " -> ");
  }

  /** The lines printed when the document breaks a schema rule; the Path line only for a non-empty path. */
  function ViolationLines(message: string, path: Path): (ls: seq<Line>)
    ensures |ls| == (if |path| > 0 then 3 else 2)
    ensures ls[0] == Text(ValidationFailedMark) && ls[1] == Text("  " + message)
    ensures |path| > 0 ==> ls[2] == Text("  Path: " + PathText(path))
    ensures Text(ValidatedMark) !in ls
  {
    assert ValidationFailedMark[0] != ValidatedMark[0] && ValidatedMark[0] != ' ';
    [Text(ValidationFailedMark), Text("  " + message)]
    + (if |path| > 0 then [Text("  Path: " + PathText(path))] else [])
  }

  // ---- Locating the bundled schema ----

  /** A file path as its components. */
  type FilePath = seq<string>

  /** Regular files have no children: no file's path is a proper prefix of another's. */
  predicate RegularFilesOnly(files: set<FilePath>) {
    forall f, g :: f in files && g in files && |f| < |g| ==> g[..|f|] != f
  }

  /** load_schema as written: the module's own file path with "schema.json" appended. */
  function SchemaPathAsWritten(moduleFile: FilePath): (p: FilePath)
    ensures |p| == |moduleFile| + 1 && p[..|moduleFile|] == moduleFile
  {
    moduleFile + ["schema.json"]
  }

  /** As written, the schema is never found: the path lies beneath a regular file. */
  lemma {:induction false} SchemaNeverFoundAsWritten(files: set<FilePath>, moduleFile: FilePath)
    requires RegularFilesOnly(files) && moduleFile in files
    ensures SchemaPathAsWritten(moduleFile) !in files
  {
  }

  /** The intended location: "schema.json" in the directory holding the module. */
  function SchemaPath(moduleFile: FilePath): (p: FilePath)
    requires |moduleFile| > 0
    ensures |p| == |moduleFile| && p[..|p| - 1] == moduleFile[..|moduleFile| - 1] && p[|p| - 1] == "schema.json"
  {
    moduleFile[..|moduleFile| - 1] + ["schema.json"]
  }

  /** A schema installed next to the module is a legal installation, and the intended lookup finds it. */
  lemma {:induction false} SchemaFoundBesideModule(moduleFile: FilePath)
    requires |moduleFile| > 0 && moduleFile[|moduleFile| - 1] != "schema.json"
    ensures RegularFilesOnly({moduleFile, SchemaPath(moduleFile)})
    ensures SchemaPath(moduleFile) != moduleFile
  {
    var p := SchemaPath(moduleFile);
    assert p[|p| - 1] != moduleFile[|moduleFile| - 1];
  }

  /** The error printed when no schema file is installed at `schemaFile`, naming it with "/" between its parts. */
  function SchemaMissing(schemaFile: FilePath): (l: Line)
    ensures l.Text? && "Error: Schema file not found at " <= l.s
  {
    Text("Error: Schema file not found at " + Join(schemaFile, "/"))
  }

  /** The `validate` command, with the schema looked up beside the module. */
  function Validate(jsonFile: string, files: set<FilePath>, moduleFile: FilePath, loaded: Loaded, verdict: Verdict): (r: Report)
    requires |moduleFile| > 0
    ensures |r.lines| >= 2 && r.lines[0] == Text("Validating " + jsonFile + "...")
    ensures r.exitCode == 0 <==> SchemaPath(moduleFile) in files && loaded.Loaded? && verdict.Valid?
    ensures r.exitCode != 0 ==> r.exitCode == 1 && Text(ValidatedMark) !in r.lines
    ensures SchemaPath(moduleFile) in files && loaded.Loaded? && verdict.Violation? ==>
      r.lines == [r.lines[0]] + ViolationLines(verdict.message, verdict.path)
    ensures r.exitCode == 0 ==> r.lines == [r.lines[0], Text(ValidatedMark)]
    ensures SchemaPath(moduleFile) !in files ==> r.lines == [r.lines[0], SchemaMissing(SchemaPath(moduleFile))]
    ensures SchemaPath(moduleFile) in files && !loaded.Loaded? ==> r.lines == [r.lines[0], LoadFailure(jsonFile, loaded)]
    ensures SchemaPath(moduleFile) in files && loaded.Loaded? && verdict.SchemaInvalid? ==>
      r.lines == [r.lines[0], Text("Error: Invalid schema: " + verdict.message)]
  {
    var start := Text("Validating " + jsonFile + "...");
    assert start.s[0] == 'V' != ValidatedMark[0];
    if SchemaPath(moduleFile) !in files then
      var missing := SchemaMissing(SchemaPath(moduleFile));
      assert missing.s[0] == 'E' != ValidatedMark[0];
      Report([start, missing], 1)
    else if !loaded.Loaded? then
      Report([start, LoadFailure(jsonFile, loaded)], 1)
    else
      match verdict
      case Valid => Report([start, Text(ValidatedMark)], 0)
      case Violation(message, path) => Report([start] + ViolationLines(message, path), 1)
      case SchemaInvalid(message) => Report([start, Text("Error: Invalid schema: " + message)], 1)
  }
}

=== FILE: decimal.dfy ===
/**
 * Decimal text of natural numbers, as Python's str() writes an int, and the
 * reading back of the leading digits of a line, the reference the printed
 * counts are checked against.
 */
module Decimal {

  predicate IsDigit(c: char) {
    '0' <= c <= '9'
  }

  predicate IsDigits(s: string) {
    forall i :: 0 <= i < |s| ==> IsDigit(s[i])
  }

  function DigitChar(d: nat): (c: char)
    requires d < 10
    ensures IsDigit(c) && c as int - '0' as int == d
  {
    ['0', '1', '2', '3', '4', '5', '6', '7', '8', '9'][d]
  }

  /** str(n): the shortest decimal spelling, no sign, no leading zero. */
  function NatToString(n: nat): (s: string)
    ensures |s| >= 1 && IsDigits(s)
    ensures s[0] == '0' ==> n == 0 && s == "0"
  {
    if n < 10 then [DigitChar(n)] else NatToString(n / 10) + [DigitChar(n % 10)]
  }

  /** The number a string of digits spells. */
  function DecimalValue(s: string): nat
    requires IsDigits(s)
  {
    if s == [] then 0
    else DecimalValue(s[..|s| - 1]) * 10 + (s[|s| - 1] as int - '0' as int)
  }

  lemma {:induction false} DecimalRoundTrip(n: nat)
    ensures DecimalValue(NatToString(n)) == n
  {
    if n >= 10 {
      var s := NatToString(n);
      assert s[..|s| - 1] == NatToString(n / 10);
      DecimalRoundTrip(n / 10);
    }
  }

  lemma {:induction false} NatToStringInjective(m: nat, n: nat)
    requires NatToString(m) == NatToString(n)
    ensures m == n
  {
    DecimalRoundTrip(m);
    DecimalRoundTrip(n);
  }

  /** The longest prefix of s made of digits. */
  function LeadingDigits(s: string): (d: string)
    ensures IsDigits(d) && |d| <= |s| && d == s[..|d|]
  {
    if s == [] || !IsDigit(s[0]) then [] else [s[0]] + LeadingDigits(s[1..])
  }

  /** The count a line of the form "<digits> <unit>" states. */
  function LeadingCount(s: string): nat {
    DecimalValue(LeadingDigits(s))
  }

  lemma {:induction false} LeadingDigitsOf(d: string, rest: string)
    requires IsDigits(d)
    requires rest == [] || !IsDigit(rest[0])
    ensures LeadingDigits(d + rest) == d
  {
    if d != [] {
      assert (d + rest)[1..] == d[1..] + rest;
      LeadingDigitsOf(d[1..], rest);
    } else {
      assert d + rest == rest;
    }
  }

  /** A count written as "<n> <unit>" reads back as n. */
  lemma {:induction false} CountReadsBack(n: nat, unit: string)
    ensures LeadingCount(NatToString(n) + " " + unit) == n
  {
    assert NatToString(n) + " " + unit == NatToString(n) + (" " + unit);
    LeadingDigitsOf(NatToString(n), " " + unit);
    DecimalRoundTrip(n);
  }
}

=== FILE: decode_properties.dfy ===
/**
 * What the model declarations promise about decoding: a missing required
 * field fails, citations may not be empty, `Literal` fields accept their
 * listed strings only, absent optional fields become None, WorkflowSchema
 * reads each aliased field under its alias or its Python name while the
 * nested models read the alias only, and keys a model does not declare are
 * ignored.
 */
module DecodeProperties {
  import opened Wrappers
  import opened JsonValues
  import opened Models
  import opened Decoder

  /** A key that no field of a model accepts changes nothing that model reads. */
  lemma LookupIgnoresOtherKeys(o: map<string, Json>, k: FieldKey, byName: bool, key: string, v: Json)
    requires !k.Accepts(key, byName)
    ensures Lookup(o[key := v], k, byName) == Lookup(o, k, byName)
  {
  }

  /** Decoding fails whenever one of the seven required fields is given under neither of its keys. */
  lemma MissingRequiredFieldFails(o: map<string, Json>, k: FieldKey, at: Path)
    requires k in WorkflowRequired
    requires forall key :: key in o ==> !k.Accepts(key, WorkflowByName)
    ensures DecodeWorkflow(JObject(o), at).Failure?
  {
    LookupFindsAcceptedKey(o, k, WorkflowByName);
    assert !HasRequiredFields(o);
  }

  /** An empty citations list is rejected (min_length=1). */
  lemma EmptyCitationsRejected(o: map<string, Json>, at: Path)
    requires Lookup(o, CitationsField, WorkflowByName) == Some(JArray([]))
    ensures DecodeWorkflow(JObject(o), at).Failure?
  {
    assert AsCitations(JArray([]), at + [Key("citations")]).Failure?;
  }

  /** An output parameter typed "file" is rejected; input parameters accept it. */
  lemma OutputTypedFileRejected(o: map<string, Json>, at: Path)
    requires Lookup(o, TypeField, NestedByName) == Some(JString("file"))
    ensures DecodeOutputParameter(JObject(o), at).Failure?
  {
    assert "file" !in OutputTypeNames;
  }

  /** Absent or null optional workflow fields decode to None, and given ones to a value. */
  lemma {:induction false} WorkflowOptionalsDefaultToNone(j: Json, at: Path)
    requires DecodeWorkflow(j, at).Success?
    ensures j.JObject?
    ensures DecodeWorkflow(j, at).value.authors.None? <==> Absent(Lookup(j.fields, AuthorsField, WorkflowByName))
    ensures DecodeWorkflow(j, at).value.institutions.None? <==> Absent(Lookup(j.fields, InstitutionsField, WorkflowByName))
    ensures DecodeWorkflow(j, at).value.configuration.None? <==> Absent(Lookup(j.fields, ConfigurationField, WorkflowByName))
    ensures DecodeWorkflow(j, at).value.outputs.None? <==> Absent(Lookup(j.fields, OutputsField, WorkflowByName))
  {
    var o := j.fields;
    var w := DecodeWorkflow(j, at).value;
    assert Opt(o, AuthorsField, WorkflowByName, at, AsAuthors) == Success(w.authors);
    assert Opt(o, InstitutionsField, WorkflowByName, at, AsInstitutions) == Success(w.institutions);
    assert Opt(o, ConfigurationField, WorkflowByName, at, DecodeConfiguration) == Success(w.configuration);
    assert Opt(o, OutputsField, WorkflowByName, at, AsOutputParameters) == Success(w.outputs);
  }

  /** A field reads the same from two objects that give it the same value. */
  lemma SameLookupSameField<T>(o1: map<string, Json>, o2: map<string, Json>, k: FieldKey, byName: bool, at: Path,
                               kind: (Json, Path) -> Result<T, Error>)
    requires Lookup(o1, k, byName) == Lookup(o2, k, byName)
    ensures Req(o1, k, byName, at, kind) == Req(o2, k, byName, at, kind)
    ensures Opt(o1, k, byName, at, kind) == Opt(o2, k, byName, at, kind)
  {
  }

  /** The two objects give every WorkflowSchema field the same value. */
  predicate SameWorkflowFields(o1: map<string, Json>, o2: map<string, Json>) {
    && Lookup(o1, NameField, WorkflowByName) == Lookup(o2, NameField, WorkflowByName)
    && Lookup(o1, DescriptionField, WorkflowByName) == Lookup(o2, DescriptionField, WorkflowByName)
    && Lookup(o1, SchemaVersionField, WorkflowByName) == Lookup(o2, SchemaVersionField, WorkflowByName)
    && Lookup(o1, AuthorsField, WorkflowByName) == Lookup(o2, AuthorsField, WorkflowByName)
    && Lookup(o1, InstitutionsField, WorkflowByName) == Lookup(o2, InstitutionsField, WorkflowByName)
    && Lookup(o1, CitationsField, WorkflowByName) == Lookup(o2, CitationsField, WorkflowByName)
    && Lookup(o1, ContainerImageField, WorkflowByName) == Lookup(o2, ContainerImageField, WorkflowByName)
    && Lookup(o1, ConfigurationField, WorkflowByName) == Lookup(o2, ConfigurationField, WorkflowByName)
    && Lookup(o1, InputsField, WorkflowByName) == Lookup(o2, InputsField, WorkflowByName)
    && Lookup(o1, OutputsField, WorkflowByName) == Lookup(o2, OutputsField, WorkflowByName)
    && Lookup(o1, CommandLineField, WorkflowByName) == Lookup(o2, CommandLineField, WorkflowByName)
  }

  /** Two objects giving every WorkflowSchema field the same value decode alike. */
  lemma {:induction false} WorkflowReadsOnlyItsFields(o1: map<string, Json>, o2: map<string, Json>, at: Path)
    requires SameWorkflowFields(o1, o2)
    ensures DecodeWorkflow(JObject(o1), at) == DecodeWorkflow(JObject(o2), at)
  {
    SameLookupSameField(o1, o2, NameField, WorkflowByName, at, AsString);
    SameLookupSameField(o1, o2, DescriptionField, WorkflowByName, at, AsString);
    SameLookupSameField(o1, o2, SchemaVersionField, WorkflowByName, at, AsString);
    SameLookupSameField(o1, o2, AuthorsField, WorkflowByName, at, AsAuthors);
    SameLookupSameField(o1, o2, InstitutionsField, WorkflowByName, at, AsInstitutions);
    SameLookupSameField(o1, o2, CitationsField, WorkflowByName, at, AsCitations);
    SameLookupSameField(o1, o2, ContainerImageField, WorkflowByName, at, DecodeContainerImage);
    SameLookupSameField(o1, o2, ConfigurationField, WorkflowByName, at, DecodeConfiguration);
    SameLookupSameField(o1, o2, InputsField, WorkflowByName, at, AsParameters);
    SameLookupSameField(o1, o2, OutputsField, WorkflowByName, at, AsOutputParameters);
    SameLookupSameField(o1, o2, CommandLineField, WorkflowByName, at, AsString);
  }

  /** A key that names no WorkflowSchema field, under alias or name, is ignored. */
  lemma {:induction false} WorkflowIgnoresUnknownKey(o: map<string, Json>, key: string, v: Json, at: Path)
    requires forall k :: k in WorkflowFields ==> !k.Accepts(key, WorkflowByName)
    ensures DecodeWorkflow(JObject(o[key := v]), at) == DecodeWorkflow(JObject(o), at)
  {
    forall k | k in WorkflowFields
      ensures Lookup(o[key := v], k, WorkflowByName) == Lookup(o, k, WorkflowByName)
    {
      LookupIgnoresOtherKeys(o, k, WorkflowByName, key, v);
    }
    WorkflowReadsOnlyItsFields(o[key := v], o, at);
  }

  // Giving an aliased WorkflowSchema field under its alias or under its name changes no field's value.

  lemma {:induction false} SchemaVersionSameFields(o: map<string, Json>, v: Json)
    requires "schema-version" !in o && "schema_version" !in o
    ensures SameWorkflowFields(o["schema-version" := v], o["schema_version" := v])
  {
    assert SameWorkflowFields(o["schema-version" := v], o["schema_version" := v]);
  }

  lemma {:induction false} ContainerImageSameFields(o: map<string, Json>, v: Json)
    requires "container-image" !in o && "container_image" !in o
    ensures SameWorkflowFields(o["container-image" := v], o["container_image" := v])
  {
    assert SameWorkflowFields(o["container-image" := v], o["container_image" := v]);
  }

  lemma {:induction false} CommandLineSameFields(o: map<string, Json>, v: Json)
    requires "command-line" !in o && "command_line" !in o
    ensures SameWorkflowFields(o["command-line" := v], o["command_line" := v])
  {
    assert SameWorkflowFields(o["command-line" := v], o["command_line" := v]);
  }

  /**
   * populate_by_name: each aliased WorkflowSchema field (schema-version,
   * container-image, command-line) decodes the same whether the document
   * spells it with the alias or with the Python name.
   */
  lemma {:induction false} WorkflowAcceptsAliasOrName(o: map<string, Json>, k: FieldKey, v: Json, at: Path)
    requires k == SchemaVersionField || k == ContainerImageField || k == CommandLineField
    requires k.alias.value !in o && k.name !in o
    ensures DecodeWorkflow(JObject(o[k.alias.value := v]), at) == DecodeWorkflow(JObject(o[k.name := v]), at)
  {
    if k == SchemaVersionField {
      SchemaVersionSameFields(o, v);
    } else if k == ContainerImageField {
      ContainerImageSameFields(o, v);
    } else {
      CommandLineSameFields(o, v);
    }
    WorkflowReadsOnlyItsFields(o[k.alias.value := v], o[k.name := v], at);
  }

  /** The two objects give every Parameter field the same value. */
  predicate SameParameterFields(o1: map<string, Json>, o2: map<string, Json>) {
    && Lookup(o1, IdField, NestedByName) == Lookup(o2, IdField, NestedByName)
    && Lookup(o1, TypeField, NestedByName) == Lookup(o2, TypeField, NestedByName)
    && Lookup(o1, NameField, NestedByName) == Lookup(o2, NameField, NestedByName)
    && Lookup(o1, DescriptionField, NestedByName) == Lookup(o2, DescriptionField, NestedByName)
    && Lookup(o1, ValueKeyField, NestedByName) == Lookup(o2, ValueKeyField, NestedByName)
    && Lookup(o1, CommandLineFlagField, NestedByName) == Lookup(o2, CommandLineFlagField, NestedByName)
    && Lookup(o1, DefaultValueField, NestedByName) == Lookup(o2, DefaultValueField, NestedByName)
    && Lookup(o1, OptionalField, NestedByName) == Lookup(o2, OptionalField, NestedByName)
    && Lookup(o1, SetByServerField, NestedByName) == Lookup(o2, SetByServerField, NestedByName)
    && Lookup(o1, FormatField, NestedByName) == Lookup(o2, FormatField, NestedByName)
    && Lookup(o1, SubTypeField, NestedByName) == Lookup(o2, SubTypeField, NestedByName)
  }

  /** Two objects giving every Parameter field the same value decode alike. */
  lemma {:induction false} ParameterReadsOnlyItsFields(o1: map<string, Json>, o2: map<string, Json>, at: Path)
    requires SameParameterFields(o1, o2)
    ensures DecodeParameter(JObject(o1), at) == DecodeParameter(JObject(o2), at)
  {
    SameLookupSameField(o1, o2, IdField, NestedByName, at, AsString);
    SameLookupSameField(o1, o2, TypeField, NestedByName, at, AsParameterType);
    SameLookupSameField(o1, o2, NameField, NestedByName, at, AsString);
    SameLookupSameField(o1, o2, DescriptionField, NestedByName, at, AsString);
    SameLookupSameField(o1, o2, ValueKeyField, NestedByName, at, AsString);
    SameLookupSameField(o1, o2, CommandLineFlagField, NestedByName, at, AsString);
    SameLookupSameField(o1, o2, DefaultValueField, NestedByName, at, AsDefaultValue);
    SameLookupSameField(o1, o2, OptionalField, NestedByName, at, AsBool);
    SameLookupSameField(o1, o2, SetByServerField, NestedByName, at, AsBool);
    SameLookupSameField(o1, o2, FormatField, NestedByName, at, AsString);
    SameLookupSameField(o1, o2, SubTypeField, NestedByName, at, AsString);
  }

  /** A key that names no Parameter field, under its alias, is ignored. */
  lemma {:induction false} ParameterIgnoresUnknownKey(o: map<string, Json>, key: string, v: Json, at: Path)
    requires forall k :: k in ParameterFields ==> !k.Accepts(key, NestedByName)
    ensures DecodeParameter(JObject(o[key := v]), at) == DecodeParameter(JObject(o), at)
  {
    forall k | k in ParameterFields
      ensures Lookup(o[key := v], k, NestedByName) == Lookup(o, k, NestedByName)
    {
      LookupIgnoresOtherKeys(o, k, NestedByName, key, v);
    }
    assert SameParameterFields(o[key := v], o);
    ParameterReadsOnlyItsFields(o[key := v], o, at);
  }

  /**
   * Parameter has no populate_by_name: its aliased fields given under their
   * Python names (value_key, command_line_flag, default_value, set_by_server,
   * sub_type) are unknown keys and leave the decoded parameter unchanged.
   */
  lemma {:induction false} ParameterIgnoresPythonNames(o: map<string, Json>, key: string, v: Json, at: Path)
    requires key in ["value_key", "command_line_flag", "default_value", "set_by_server", "sub_type"]
    ensures DecodeParameter(JObject(o[key := v]), at) == DecodeParameter(JObject(o), at)
  {
    PythonNameUnknownToParameter(key);
    ParameterIgnoresUnknownKey(o, key, v, at);
  }

  /** No Parameter field accepts the Python names of its aliased fields. */
  lemma PythonNameUnknownToParameter(key: string)
    requires key in ["value_key", "command_line_flag", "default_value", "set_by_server", "sub_type"]
    ensures forall k :: k in ParameterFields ==> !k.Accepts(key, NestedByName)
  {
    if key in ["value_key", "command_line_flag", "default_value"] {
      FirstPythonNamesUnknown(key);
    } else {
      assert forall k :: k in ParameterFields ==> !k.Accepts(key, NestedByName);
    }
  }

  lemma FirstPythonNamesUnknown(key: string)
    requires key in ["value_key", "command_line_flag", "default_value"]
    ensures forall k :: k in ParameterFields ==> !k.Accepts(key, NestedByName)
  {
    if key == "value_key" {
      assert forall k :: k in ParameterFields ==> !k.Accepts(key, NestedByName);
    } else if key == "command_line_flag" {
      assert forall k :: k in ParameterFields ==> !k.Accepts(key, NestedByName);
    }
  }

  /** Hence value_key spelled with its Python name is dropped: the parameter's value_key stays None. */
  lemma {:induction false} ValueKeyReadUnderAliasOnly(o: map<string, Json>, s: string, at: Path)
    requires "value-key" !in o
    requires DecodeParameter(JObject(o["value_key" := JString(s)]), at).Success?
    ensures DecodeParameter(JObject(o["value_key" := JString(s)]), at).value.valueKey == None
  {
    ParameterIgnoresPythonNames(o, "value_key", JString(s), at);
    assert Opt(o, ValueKeyField, NestedByName, at, AsString) == Success(None);
  }

  /** The format of an input Parameter is any string, even one no standalone parameter model allows. */
  lemma {:induction false} InputFormatUnrestricted(id: string, format: string, at: Path)
    ensures DecodeParameter(JObject(map["id" := JString(id), "type" := JString("image"), "format" := JString(format)]), at)
      == Success(Parameter(id, TypeImage, None, None, None, None, None, None, None, Some(format), None))
  {
    ImageInputFields(id, format, at);
  }

  lemma ImageInputFields(id: string, format: string, at: Path)
    ensures Req(map["id" := JString(id), "type" := JString("image"), "format" := JString(format)],
                TypeField, NestedByName, at, AsParameterType) == Success(TypeImage)
    ensures Opt(map["id" := JString(id), "type" := JString("image"), "format" := JString(format)],
                FormatField, NestedByName, at, AsString) == Success(Some(format))
  {
  }

  /** A standalone ImageParameter or ArrayParameter rejects a format outside its literals. */
  lemma StandaloneFormatRestricted(format: string, at: Path)
    requires format !in ImageFormatNames && format !in ArrayFormatNames
    ensures DecodeImageParameter(JObject(map["sub-type" := JString("color"), "format" := JString(format)]), at).Failure?
    ensures DecodeArrayParameter(JObject(map["format" := JString(format)]), at).Failure?
  {
  }

  /**
   * A document with Python-name keys, an empty citations list, a "docker"
   * container type, no command line and an input without id: the model
   * declarations reject it.
   */
  lemma {:induction false} LooseDocumentRejected()
    ensures Decode(JObject(map[
      "name" := JString("wf1"),
      "description" := JString("d"),
      "schema_version" := JString("1.0"),
      "container_image" := JObject(map["image" := JString("repo/img:tag"), "type" := JString("docker")]),
      "citations" := JArray([]),
      "inputs" := JArray([JObject(map["name" := JString("x"), "type" := JString("string")])])])).Failure?
  {
    var o := map[
      "name" := JString("wf1"),
      "description" := JString("d"),
      "schema_version" := JString("1.0"),
      "container_image" := JObject(map["image" := JString("repo/img:tag"), "type" := JString("docker")]),
      "citations" := JArray([]),
      "inputs" := JArray([JObject(map["name" := JString("x"), "type" := JString("string")])])];
    MissingRequiredFieldFails(o, CommandLineField, []);
  }

  // ---- A present value that does not decode rejects the document ----

  /** A container type outside ["oci", "singularity"], such as "docker", rejects the document. */
  lemma {:induction false} UnknownContainerTypeRejected(o: map<string, Json>, c: map<string, Json>, t: string, at: Path)
    requires Lookup(o, ContainerImageField, WorkflowByName) == Some(JObject(c))
    requires Lookup(c, TypeField, NestedByName) == Some(JString(t)) && t !in ContainerKindNames
    ensures DecodeWorkflow(JObject(o), at).Failure?
  {
    assert DecodeContainerImage(JObject(c), at + [Key(ContainerImageField.Emitted())]).Failure?;
  }

  /** A citation without a license rejects the document. */
  lemma {:induction false} CitationWithoutLicenseRejected(o: map<string, Json>, items: seq<Json>, i: nat, at: Path)
    requires Lookup(o, CitationsField, WorkflowByName) == Some(JArray(items))
    requires i < |items| && items[i].JObject? && Lookup(items[i].fields, LicenseField, NestedByName).None?
    ensures DecodeWorkflow(JObject(o), at).Failure?
  {
    assert DecodeCitation(items[i], at + [Key(CitationsField.Emitted())] + [Index(i)]).Failure?;
  }

  /** An input that does not decode rejects the document. */
  lemma {:induction false} InvalidInputRejected(o: map<string, Json>, items: seq<Json>, i: nat, at: Path)
    requires Lookup(o, InputsField, WorkflowByName) == Some(JArray(items))
    requires i < |items| && DecodeParameter(items[i], at + [Key(InputsField.Emitted())] + [Index(i)]).Failure?
    ensures DecodeWorkflow(JObject(o), at).Failure?
  {
    assert AsParameters(JArray(items), at + [Key(InputsField.Emitted())]).Failure?;
  }

  /** An output typed "file" rejects the document. */
  lemma {:induction false} FileTypedOutputRejected(o: map<string, Json>, items: seq<Json>, i: nat, at: Path)
    requires Lookup(o, OutputsField, WorkflowByName) == Some(JArray(items))
    requires i < |items| && items[i].JObject? && Lookup(items[i].fields, TypeField, NestedByName) == Some(JString("file"))
    ensures DecodeWorkflow(JObject(o), at).Failure?
  {
    var path := at + [Key(OutputsField.Emitted())];
    OutputTypedFileRejected(items[i].fields, path + [Index(i)]);
    assert AsOutputParameters(JArray(items), path).Failure?;
  }

  /** A configuration that is given, not null, and does not decode rejects the document. */
  lemma {:induction false} InvalidConfigurationRejected(o: map<string, Json>, v: Json, at: Path)
    requires Lookup(o, ConfigurationField, WorkflowByName) == Some(v) && !v.JNull?
    requires DecodeConfiguration(v, at + [Key(ConfigurationField.Emitted())]).Failure?
    ensures DecodeWorkflow(JObject(o), at).Failure?
  {
  }

  /** An author email that is given, not null and not a string rejects the author. */
  lemma {:induction false} EmailOfWrongKindRejected(o: map<string, Json>, v: Json, at: Path)
    requires Lookup(o, EmailField, NestedByName) == Some(v) && !v.JNull? && !v.JString?
    ensures DecodeAuthor(JObject(o), at).Failure?
  {
  }

  /** A gpu flag that is given, not null and not a boolean (say "maybe", 2 or []) rejects the resources. */
  lemma {:induction false} GpuOfWrongKindRejected(o: map<string, Json>, v: Json, at: Path)
    requires Lookup(o, GpuField, NestedByName) == Some(v) && !v.JNull? && !v.JBool?
    ensures DecodeResources(JObject(o), at).Failure?
  {
  }

  // ---- The decoded workflow holds the document's values ----

  /** Whatever else the document holds, the decoded name, description, schema version and command line are the strings under their keys. */
  lemma {:induction false} DecodedTextsAreTheDocuments(j: Json)
    requires Decode(j).Success?
    ensures j.JObject?
    ensures Lookup(j.fields, NameField, WorkflowByName) == Some(JString(Decode(j).value.name))
    ensures Lookup(j.fields, DescriptionField, WorkflowByName) == Some(JString(Decode(j).value.description))
    ensures Lookup(j.fields, SchemaVersionField, WorkflowByName) == Some(JString(Decode(j).value.schemaVersion))
    ensures Lookup(j.fields, CommandLineField, WorkflowByName) == Some(JString(Decode(j).value.commandLine))
  {
    var w := Decode(j).value;
    assert WorkflowFieldsHold(j.fields, [], w);
    StringFieldRead(j.fields, NameField, WorkflowByName, [], w.name);
    StringFieldRead(j.fields, DescriptionField, WorkflowByName, [], w.description);
    StringFieldRead(j.fields, SchemaVersionField, WorkflowByName, [], w.schemaVersion);
    StringFieldRead(j.fields, CommandLineField, WorkflowByName, [], w.commandLine);
  }

  /** The decoded author list is None exactly when "authors" is absent or null, and otherwise the list read there. */
  lemma {:induction false} DecodedAuthorsAreTheDocuments(j: Json)
    requires Decode(j).Success?
    ensures j.JObject?
    ensures Decode(j).value.authors.None? <==> Absent(Lookup(j.fields, AuthorsField, WorkflowByName))
    ensures Decode(j).value.authors.Some? ==>
      AsAuthors(Lookup(j.fields, AuthorsField, WorkflowByName).value, [Key(AuthorsField.Emitted())]) == Success(Decode(j).value.authors.value)
  {
    var w := Decode(j).value;
    assert Opt(j.fields, AuthorsField, WorkflowByName, [], AsAuthors) == Success(w.authors);
    assert [] + [Key(AuthorsField.Emitted())] == [Key(AuthorsField.Emitted())];
  }
}

=== FILE: decoder.dfy ===
/**
 * Building the records from a loaded JSON document, as model validation does:
 * required and optional fields, `Literal` domains, `min_length=1` on
 * citations, and the alias table. Only WorkflowSchema populates by name
 * (its `Config`); the nested models accept their aliases only, and any key
 * a model does not declare is ignored. The first error met, in declaration
 * order, is reported.
 */
module Decoder {
  import opened Wrappers
  import opened JsonValues
  import opened Models

  /** WorkflowSchema's Config sets populate_by_name and validate_by_name. */
  const WorkflowByName := true

  /** The nested models keep the default: aliased fields are read under the alias only. */
  const NestedByName := false

  function NotObject<T>(at: Path): Result<T, Error> {
    Failure(Error(at, WrongKind(ObjectKind)))
  }

  // ---- Literal fields ----

  function AsContainerKind(j: Json, at: Path): (r: Result<ContainerKind, Error>)
    ensures r.Success? <==> j.JString? && j.s in ContainerKindNames
    ensures r.Success? ==> r.value.Name() == j.s
  {
    AsLiteral(j, at, ContainerKindNames, ContainerKindNamed)
  }

  function AsParameterType(j: Json, at: Path): (r: Result<ParameterType, Error>)
    ensures r.Success? <==> j.JString? && j.s in ParameterTypeNames
    ensures r.Success? ==> r.value.Name() == j.s
  {
    AsLiteral(j, at, ParameterTypeNames, ParameterTypeNamed)
  }

  function AsOutputType(j: Json, at: Path): (r: Result<OutputType, Error>)
    ensures r.Success? <==> j.JString? && j.s in OutputTypeNames
    ensures r.Success? ==> r.value.Name() == j.s
  {
    AsLiteral(j, at, OutputTypeNames, OutputTypeNamed)
  }

  function AsImageSubType(j: Json, at: Path): (r: Result<ImageSubType, Error>)
    ensures r.Success? <==> j.JString? && j.s in ImageSubTypeNames
    ensures r.Success? ==> r.value.Name() == j.s
  {
    AsLiteral(j, at, ImageSubTypeNames, ImageSubTypeNamed)
  }

  function AsImageFormat(j: Json, at: Path): (r: Result<ImageFormat, Error>)
    ensures r.Success? <==> j.JString? && j.s in ImageFormatNames
    ensures r.Success? ==> r.value.Name() == j.s
  {
    AsLiteral(j, at, ImageFormatNames, ImageFormatNamed)
  }

  function AsArrayFormat(j: Json, at: Path): (r: Result<ArrayFormat, Error>)
    ensures r.Success? <==> j.JString? && j.s in ArrayFormatNames
    ensures r.Success? ==> r.value.Name() == j.s
  {
    AsLiteral(j, at, ArrayFormatNames, ArrayFormatNamed)
  }

  // ---- Union fields ----

  /** Union[str, float, bool]: a string, a number or a boolean, each kept as what it is. */
  function AsDefaultValue(j: Json, at: Path): (r: Result<DefaultValue, Error>)
    ensures r.Success? <==> j.JString? || j.JNumber? || j.JBool?
  {
    match j
    case JString(s) => Success(TextDefault(s))
    case JNumber(n) => Success(NumberDefault(n))
    case JBool(b) => Success(FlagDefault(b))
    case _ => Failure(Error(at, WrongKind(ScalarKind)))
  }

  /** Union[str, List[str]]. */
  function AsCapability(j: Json, at: Path): (r: Result<Capability, Error>)
    ensures j.JString? ==> r == Success(MinCapability(j.s))
    ensures r.Success? <==> j.JString? || AsStringList(j, at).Success?
  {
    match j
    case JString(s) => Success(MinCapability(s))
    case JArray(_) =>
      var values :- AsStringList(j, at);
      Success(CapabilityList(values))
    case _ => Failure(Error(at, WrongKind(StringOrArrayKind)))
  }

  // ---- Records ----

  function DecodeAuthor(j: Json, at: Path): (r: Result<Author, Error>)
    ensures r.Success? <==> (
      j.JObject?
      && Req(j.fields, NameField, NestedByName, at, AsString).Success?
      && Opt(j.fields, EmailField, NestedByName, at, AsString).Success?
      && Opt(j.fields, AffiliationsField, NestedByName, at, AsStringList).Success?)
    ensures r.Success? ==> j.JObject? && Lookup(j.fields, NameField, NestedByName) == Some(JString(r.value.name))
    ensures r.Success? ==> (r.value.email.None? <==> Absent(Lookup(j.fields, EmailField, NestedByName)))
    ensures r.Success? ==> (r.value.affiliations.None? <==> Absent(Lookup(j.fields, AffiliationsField, NestedByName)))
    ensures r.Success? ==> Opt(j.fields, EmailField, NestedByName, at, AsString) == Success(r.value.email)
    ensures r.Success? ==> Opt(j.fields, AffiliationsField, NestedByName, at, AsStringList) == Success(r.value.affiliations)
  {
    match j
    case JObject(o) =>
      var name :- Req(o, NameField, NestedByName, at, AsString);
      var email :- Opt(o, EmailField, NestedByName, at, AsString);
      var affiliations :- Opt(o, AffiliationsField, NestedByName, at, AsStringList);
      Success(Author(name, email, affiliations))
    case _ => NotObject(at)
  }

  function DecodeInstitution(j: Json, at: Path): (r: Result<Institution, Error>)
    ensures r.Success? <==> (
      j.JObject?
      && Req(j.fields, IdField, NestedByName, at, AsString).Success?
      && Opt(j.fields, NameField, NestedByName, at, AsString).Success?)
    ensures r.Success? ==> j.JObject? && Lookup(j.fields, IdField, NestedByName) == Some(JString(r.value.id))
    ensures r.Success? ==> (r.value.name.None? <==> Absent(Lookup(j.fields, NameField, NestedByName)))
    ensures r.Success? ==> Opt(j.fields, NameField, NestedByName, at, AsString) == Success(r.value.name)
  {
    match j
    case JObject(o) =>
      var id :- Req(o, IdField, NestedByName, at, AsString);
      var name :- Opt(o, NameField, NestedByName, at, AsString);
      Success(Institution(id, name))
    case _ => NotObject(at)
  }

  function DecodeCitation(j: Json, at: Path): (r: Result<Citation, Error>)
    ensures r.Success? <==> (
      j.JObject?
      && Req(j.fields, NameField, NestedByName, at, AsString).Success?
      && Opt(j.fields, DoiField, NestedByName, at, AsString).Success?
      && Req(j.fields, LicenseField, NestedByName, at, AsString).Success?
      && Opt(j.fields, DescriptionField, NestedByName, at, AsString).Success?)
    ensures r.Success? ==> (
      j.JObject?
      && Lookup(j.fields, NameField, NestedByName) == Some(JString(r.value.name))
      && Lookup(j.fields, LicenseField, NestedByName) == Some(JString(r.value.license)))
    ensures r.Success? ==> (r.value.doi.None? <==> Absent(Lookup(j.fields, DoiField, NestedByName)))
    ensures r.Success? ==> (r.value.description.None? <==> Absent(Lookup(j.fields, DescriptionField, NestedByName)))
    ensures r.Success? ==> Opt(j.fields, DoiField, NestedByName, at, AsString) == Success(r.value.doi)
    ensures r.Success? ==> Opt(j.fields, DescriptionField, NestedByName, at, AsString) == Success(r.value.description)
  {
    match j
    case JObject(o) =>
      var name :- Req(o, NameField, NestedByName, at, AsString);
      var doi :- Opt(o, DoiField, NestedByName, at, AsString);
      var license :- Req(o, LicenseField, NestedByName, at, AsString);
      var description :- Opt(o, DescriptionField, NestedByName, at, AsString);
      Success(Citation(name, doi, license, description))
    case _ => NotObject(at)
  }

  function DecodeContainerImage(j: Json, at: Path): (r: Result<ContainerImage, Error>)
    ensures r.Success? <==> (
      j.JObject?
      && Lookup(j.fields, ImageField, NestedByName).Some? && Lookup(j.fields, ImageField, NestedByName).value.JString?
      && Lookup(j.fields, TypeField, NestedByName).Some? && Lookup(j.fields, TypeField, NestedByName).value.JString?
      && Lookup(j.fields, TypeField, NestedByName).value.s in ContainerKindNames)
    ensures r.Success? ==>
      (Lookup(j.fields, ImageField, NestedByName) == Some(JString(r.value.image))
      && Lookup(j.fields, TypeField, NestedByName) == Some(JString(r.value.kind.Name())))
  {
    match j
    case JObject(o) =>
      var image :- Req(o, ImageField, NestedByName, at, AsString);
      var kind :- Req(o, TypeField, NestedByName, at, AsContainerKind);
      Success(ContainerImage(image, kind))
    case _ => NotObject(at)
  }

  function DecodeCudaRequirements(j: Json, at: Path): (r: Result<CudaRequirements, Error>)
    ensures r.Success? <==> (
      j.JObject?
      && Opt(j.fields, DeviceMemoryMinField, NestedByName, at, AsNumber).Success?
      && Opt(j.fields, CudaComputeCapabilityField, NestedByName, at, AsCapability).Success?)
    ensures r.Success? ==> j.JObject?
    ensures r.Success? ==> (r.value.deviceMemoryMin.None? <==> Absent(Lookup(j.fields, DeviceMemoryMinField, NestedByName)))
    ensures r.Success? ==> (r.value.cudaComputeCapability.None? <==> Absent(Lookup(j.fields, CudaComputeCapabilityField, NestedByName)))
    ensures r.Success? ==> Opt(j.fields, DeviceMemoryMinField, NestedByName, at, AsNumber) == Success(r.value.deviceMemoryMin)
    ensures r.Success? ==> Opt(j.fields, CudaComputeCapabilityField, NestedByName, at, AsCapability) == Success(r.value.cudaComputeCapability)
  {
    match j
    case JObject(o) =>
      var deviceMemoryMin :- Opt(o, DeviceMemoryMinField, NestedByName, at, AsNumber);
      var capability :- Opt(o, CudaComputeCapabilityField, NestedByName, at, AsCapability);
      Success(CudaRequirements(deviceMemoryMin, capability))
    case _ => NotObject(at)
  }

  function DecodeResources(j: Json, at: Path): (r: Result<Resources, Error>)
    ensures r.Success? <==> (
      j.JObject?
      && Opt(j.fields, NetworkingField, NestedByName, at, AsBool).Success?
      && Opt(j.fields, RamMinField, NestedByName, at, AsNumber).Success?
      && Opt(j.fields, CoresMinField, NestedByName, at, AsNumber).Success?
      && Opt(j.fields, GpuField, NestedByName, at, AsBool).Success?
      && Opt(j.fields, CudaRequirementsField, NestedByName, at, DecodeCudaRequirements).Success?
      && Opt(j.fields, CpuAvxField, NestedByName, at, AsBool).Success?
      && Opt(j.fields, CpuAvx2Field, NestedByName, at, AsBool).Success?)
    ensures r.Success? ==> j.JObject?
    ensures r.Success? ==> (r.value.networking.None? <==> Absent(Lookup(j.fields, NetworkingField, NestedByName)))
    ensures r.Success? ==> (r.value.ramMin.None? <==> Absent(Lookup(j.fields, RamMinField, NestedByName)))
    ensures r.Success? ==> (r.value.coresMin.None? <==> Absent(Lookup(j.fields, CoresMinField, NestedByName)))
    ensures r.Success? ==> (r.value.gpu.None? <==> Absent(Lookup(j.fields, GpuField, NestedByName)))
    ensures r.Success? ==> (r.value.cudaRequirements.None? <==> Absent(Lookup(j.fields, CudaRequirementsField, NestedByName)))
    ensures r.Success? ==> (r.value.cpuAvx.None? <==> Absent(Lookup(j.fields, CpuAvxField, NestedByName)))
    ensures r.Success? ==> (r.value.cpuAvx2.None? <==> Absent(Lookup(j.fields, CpuAvx2Field, NestedByName)))
    ensures r.Success? ==> Opt(j.fields, NetworkingField, NestedByName, at, AsBool) == Success(r.value.networking)
    ensures r.Success? ==> Opt(j.fields, RamMinField, NestedByName, at, AsNumber) == Success(r.value.ramMin)
    ensures r.Success? ==> Opt(j.fields, CoresMinField, NestedByName, at, AsNumber) == Success(r.value.coresMin)
    ensures r.Success? ==> Opt(j.fields, GpuField, NestedByName, at, AsBool) == Success(r.value.gpu)
    ensures r.Success? ==> Opt(j.fields, CudaRequirementsField, NestedByName, at, DecodeCudaRequirements) == Success(r.value.cudaRequirements)
    ensures r.Success? ==> Opt(j.fields, CpuAvxField, NestedByName, at, AsBool) == Success(r.value.cpuAvx)
    ensures r.Success? ==> Opt(j.fields, CpuAvx2Field, NestedByName, at, AsBool) == Success(r.value.cpuAvx2)
  {
    match j
    case JObject(o) =>
      BuildResources(Opt(o, NetworkingField, NestedByName, at, AsBool),
                     Opt(o, RamMinField, NestedByName, at, AsNumber),
                     Opt(o, CoresMinField, NestedByName, at, AsNumber),
                     Opt(o, GpuField, NestedByName, at, AsBool),
                     Opt(o, CudaRequirementsField, NestedByName, at, DecodeCudaRequirements),
                     Opt(o, CpuAvxField, NestedByName, at, AsBool),
                     Opt(o, CpuAvx2Field, NestedByName, at, AsBool))
    case _ => NotObject(at)
  }

  /** Assembles Resources from its fields read one by one, reporting the first failure in declaration order. */
  function BuildResources(networking: Result<Option<bool>, Error>, ramMin: Result<Option<Number>, Error>,
                          coresMin: Result<Option<Number>, Error>, gpu: Result<Option<bool>, Error>,
                          cuda: Result<Option<CudaRequirements>, Error>, cpuAvx: Result<Option<bool>, Error>,
                          cpuAvx2: Result<Option<bool>, Error>): (r: Result<Resources, Error>)
    ensures r.Success? <==> (&& networking.Success? && ramMin.Success? && coresMin.Success? && gpu.Success?
                             && cuda.Success? && cpuAvx.Success? && cpuAvx2.Success?)
    ensures r.Success? ==> (r.value == Resources(networking.value, ramMin.value, coresMin.value, gpu.value,
                                                 cuda.value, cpuAvx.value, cpuAvx2.value))
  {
    var networking :- networking;
    var ramMin :- ramMin;
    var coresMin :- coresMin;
    var gpu :- gpu;
    var cuda :- cuda;
    var cpuAvx :- cpuAvx;
    var cpuAvx2 :- cpuAvx2;
    Success(Resources(networking, ramMin, coresMin, gpu, cuda, cpuAvx, cpuAvx2))
  }

  function DecodeConfiguration(j: Json, at: Path): (r: Result<Configuration, Error>)
    ensures r.Success? <==> (
      j.JObject?
      && Opt(j.fields, InputFolderField, NestedByName, at, AsString).Success?
      && Opt(j.fields, OutputFolderField, NestedByName, at, AsString).Success?
      && Opt(j.fields, ResourcesField, NestedByName, at, DecodeResources).Success?)
    ensures r.Success? ==> j.JObject?
    ensures r.Success? ==> (r.value.inputFolder.None? <==> Absent(Lookup(j.fields, InputFolderField, NestedByName)))
    ensures r.Success? ==> (r.value.outputFolder.None? <==> Absent(Lookup(j.fields, OutputFolderField, NestedByName)))
    ensures r.Success? ==> (r.value.resources.None? <==> Absent(Lookup(j.fields, ResourcesField, NestedByName)))
    ensures r.Success? ==> Opt(j.fields, InputFolderField, NestedByName, at, AsString) == Success(r.value.inputFolder)
    ensures r.Success? ==> Opt(j.fields, OutputFolderField, NestedByName, at, AsString) == Success(r.value.outputFolder)
    ensures r.Success? ==> Opt(j.fields, ResourcesField, NestedByName, at, DecodeResources) == Success(r.value.resources)
  {
    match j
    case JObject(o) =>
      var inputFolder :- Opt(o, InputFolderField, NestedByName, at, AsString);
      var outputFolder :- Opt(o, OutputFolderField, NestedByName, at, AsString);
      var resources :- Opt(o, ResourcesField, NestedByName, at, DecodeResources);
      Success(Configuration(inputFolder, outputFolder, resources))
    case _ => NotObject(at)
  }

  /** FileParameter on its own: a required, unrestricted format string. */
  function DecodeFileParameter(j: Json, at: Path): (r: Result<FileParameter, Error>)
    ensures r.Success? <==> (
      j.JObject?
      && Lookup(j.fields, FormatField, NestedByName).Some? && Lookup(j.fields, FormatField, NestedByName).value.JString?)
    ensures r.Success? ==> Lookup(j.fields, FormatField, NestedByName) == Some(JString(r.value.format))
  {
    match j
    case JObject(o) =>
      var format :- Req(o, FormatField, NestedByName, at, AsString);
      Success(FileParameter(format))
    case _ => NotObject(at)
  }

  /** ImageParameter on its own: sub-type and format restricted to their literals. */
  function DecodeImageParameter(j: Json, at: Path): (r: Result<ImageParameter, Error>)
    ensures r.Success? <==> (
      j.JObject?
      && Lookup(j.fields, SubTypeField, NestedByName).Some? && Lookup(j.fields, SubTypeField, NestedByName).value.JString?
      && Lookup(j.fields, SubTypeField, NestedByName).value.s in ImageSubTypeNames
      && Lookup(j.fields, FormatField, NestedByName).Some? && Lookup(j.fields, FormatField, NestedByName).value.JString?
      && Lookup(j.fields, FormatField, NestedByName).value.s in ImageFormatNames)
    ensures r.Success? ==> (
      Lookup(j.fields, SubTypeField, NestedByName) == Some(JString(r.value.subType.Name()))
      && Lookup(j.fields, FormatField, NestedByName) == Some(JString(r.value.format.Name())))
  {
    match j
    case JObject(o) =>
      var subType :- Req(o, SubTypeField, NestedByName, at, AsImageSubType);
      var format :- Req(o, FormatField, NestedByName, at, AsImageFormat);
      Success(ImageParameter(subType, format))
    case _ => NotObject(at)
  }

  /** ArrayParameter on its own: format restricted to npy and npz. */
  function DecodeArrayParameter(j: Json, at: Path): (r: Result<ArrayParameter, Error>)
    ensures r.Success? <==> (
      j.JObject?
      && Lookup(j.fields, FormatField, NestedByName).Some? && Lookup(j.fields, FormatField, NestedByName).value.JString?
      && Lookup(j.fields, FormatField, NestedByName).value.s in ArrayFormatNames)
    ensures r.Success? ==> Lookup(j.fields, FormatField, NestedByName) == Some(JString(r.value.format.Name()))
  {
    match j
    case JObject(o) =>
      var format :- Req(o, FormatField, NestedByName, at, AsArrayFormat);
      Success(ArrayParameter(format))
    case _ => NotObject(at)
  }

  function DecodeParameter(j: Json, at: Path): (r: Result<Parameter, Error>)
    ensures r.Success? <==> (
      j.JObject?
      && Req(j.fields, IdField, NestedByName, at, AsString).Success?
      && Req(j.fields, TypeField, NestedByName, at, AsParameterType).Success?
      && Opt(j.fields, NameField, NestedByName, at, AsString).Success?
      && Opt(j.fields, DescriptionField, NestedByName, at, AsString).Success?
      && Opt(j.fields, ValueKeyField, NestedByName, at, AsString).Success?
      && Opt(j.fields, CommandLineFlagField, NestedByName, at, AsString).Success?
      && Opt(j.fields, DefaultValueField, NestedByName, at, AsDefaultValue).Success?
      && Opt(j.fields, OptionalField, NestedByName, at, AsBool).Success?
      && Opt(j.fields, SetByServerField, NestedByName, at, AsBool).Success?
      && Opt(j.fields, FormatField, NestedByName, at, AsString).Success?
      && Opt(j.fields, SubTypeField, NestedByName, at, AsString).Success?)
    ensures r.Success? ==> (
      j.JObject?
      && Lookup(j.fields, IdField, NestedByName) == Some(JString(r.value.id))
      && Lookup(j.fields, TypeField, NestedByName) == Some(JString(r.value.kind.Name())))
    ensures r.Success? ==> (r.value.name.None? <==> Absent(Lookup(j.fields, NameField, NestedByName)))
    ensures r.Success? ==> (r.value.description.None? <==> Absent(Lookup(j.fields, DescriptionField, NestedByName)))
    ensures r.Success? ==> (r.value.valueKey.None? <==> Absent(Lookup(j.fields, ValueKeyField, NestedByName)))
    ensures r.Success? ==> (r.value.commandLineFlag.None? <==> Absent(Lookup(j.fields, CommandLineFlagField, NestedByName)))
    ensures r.Success? ==> (r.value.defaultValue.None? <==> Absent(Lookup(j.fields, DefaultValueField, NestedByName)))
    ensures r.Success? ==> (r.value.optional.None? <==> Absent(Lookup(j.fields, OptionalField, NestedByName)))
    ensures r.Success? ==> (r.value.setByServer.None? <==> Absent(Lookup(j.fields, SetByServerField, NestedByName)))
    ensures r.Success? ==> (r.value.format.None? <==> Absent(Lookup(j.fields, FormatField, NestedByName)))
    ensures r.Success? ==> (r.value.subType.None? <==> Absent(Lookup(j.fields, SubTypeField, NestedByName)))
    ensures r.Success? && r.value.format.Some? ==> Lookup(j.fields, FormatField, NestedByName) == Some(JString(r.value.format.value))
    ensures r.Success? && r.value.subType.Some? ==> Lookup(j.fields, SubTypeField, NestedByName) == Some(JString(r.value.subType.value))
    ensures r.Success? ==> Opt(j.fields, NameField, NestedByName, at, AsString) == Success(r.value.name)
    ensures r.Success? ==> Opt(j.fields, DescriptionField, NestedByName, at, AsString) == Success(r.value.description)
    ensures r.Success? ==> Opt(j.fields, ValueKeyField, NestedByName, at, AsString) == Success(r.value.valueKey)
    ensures r.Success? ==> Opt(j.fields, CommandLineFlagField, NestedByName, at, AsString) == Success(r.value.commandLineFlag)
    ensures r.Success? ==> Opt(j.fields, DefaultValueField, NestedByName, at, AsDefaultValue) == Success(r.value.defaultValue)
    ensures r.Success? ==> Opt(j.fields, OptionalField, NestedByName, at, AsBool) == Success(r.value.optional)
    ensures r.Success? ==> Opt(j.fields, SetByServerField, NestedByName, at, AsBool) == Success(r.value.setByServer)
  {
    match j
    case JObject(o) =>
      BuildParameter(Req(o, IdField, NestedByName, at, AsString),
                     Req(o, TypeField, NestedByName, at, AsParameterType),
                     Opt(o, NameField, NestedByName, at, AsString),
                     Opt(o, DescriptionField, NestedByName, at, AsString),
                     Opt(o, ValueKeyField, NestedByName, at, AsString),
                     Opt(o, CommandLineFlagField, NestedByName, at, AsString),
                     Opt(o, DefaultValueField, NestedByName, at, AsDefaultValue),
                     Opt(o, OptionalField, NestedByName, at, AsBool),
                     Opt(o, SetByServerField, NestedByName, at, AsBool),
                     Opt(o, FormatField, NestedByName, at, AsString),
                     Opt(o, SubTypeField, NestedByName, at, AsString))
    case _ => NotObject(at)
  }

  /** Assembles a Parameter from its fields read one by one, reporting the first failure in declaration order. */
  function BuildParameter(id: Result<string, Error>, kind: Result<ParameterType, Error>,
                          name: Result<Option<string>, Error>, description: Result<Option<string>, Error>,
                          valueKey: Result<Option<string>, Error>, flag: Result<Option<string>, Error>,
                          defaultValue: Result<Option<DefaultValue>, Error>, optional: Result<Option<bool>, Error>,
                          setByServer: Result<Option<bool>, Error>, format: Result<Option<string>, Error>,
                          subType: Result<Option<string>, Error>): (r: Result<Parameter, Error>)
    ensures r.Success? <==> (&& id.Success? && kind.Success? && name.Success? && description.Success?
                             && valueKey.Success? && flag.Success? && defaultValue.Success? && optional.Success?
                             && setByServer.Success? && format.Success? && subType.Success?)
    ensures r.Success? ==> (r.value == Parameter(id.value, kind.value, name.value, description.value, valueKey.value,
                                                 flag.value, defaultValue.value, optional.value, setByServer.value,
                                                 format.value, subType.value))
  {
    var id :- id;
    var kind :- kind;
    var name :- name;
    var description :- description;
    var valueKey :- valueKey;
    var flag :- flag;
    var defaultValue :- defaultValue;
    var optional :- optional;
    var setByServer :- setByServer;
    var format :- format;
    var subType :- subType;
    Success(Parameter(id, kind, name, description, valueKey, flag, defaultValue, optional, setByServer, format, subType))
  }

  function DecodeOutputParameter(j: Json, at: Path): (r: Result<OutputParameter, Error>)
    ensures r.Success? <==> (
      j.JObject?
      && Req(j.fields, IdField, NestedByName, at, AsString).Success?
      && Req(j.fields, TypeField, NestedByName, at, AsOutputType).Success?
      && Opt(j.fields, NameField, NestedByName, at, AsString).Success?
      && Opt(j.fields, DescriptionField, NestedByName, at, AsString).Success?
      && Opt(j.fields, ValueKeyField, NestedByName, at, AsString).Success?
      && Opt(j.fields, CommandLineFlagField, NestedByName, at, AsString).Success?
      && Opt(j.fields, DefaultValueField, NestedByName, at, AsDefaultValue).Success?
      && Opt(j.fields, OptionalField, NestedByName, at, AsBool).Success?
      && Opt(j.fields, SetByServerField, NestedByName, at, AsBool).Success?)
    ensures r.Success? ==> (
      j.JObject?
      && Lookup(j.fields, IdField, NestedByName) == Some(JString(r.value.id))
      && Lookup(j.fields, TypeField, NestedByName) == Some(JString(r.value.kind.Name())))
    ensures r.Success? ==> (r.value.name.None? <==> Absent(Lookup(j.fields, NameField, NestedByName)))
    ensures r.Success? ==> (r.value.description.None? <==> Absent(Lookup(j.fields, DescriptionField, NestedByName)))
    ensures r.Success? ==> (r.value.valueKey.None? <==> Absent(Lookup(j.fields, ValueKeyField, NestedByName)))
    ensures r.Success? ==> (r.value.commandLineFlag.None? <==> Absent(Lookup(j.fields, CommandLineFlagField, NestedByName)))
    ensures r.Success? ==> (r.value.defaultValue.None? <==> Absent(Lookup(j.fields, DefaultValueField, NestedByName)))
    ensures r.Success? ==> (r.value.optional.None? <==> Absent(Lookup(j.fields, OptionalField, NestedByName)))
    ensures r.Success? ==> (r.value.setByServer.None? <==> Absent(Lookup(j.fields, SetByServerField, NestedByName)))
    ensures r.Success? ==> Opt(j.fields, NameField, NestedByName, at, AsString) == Success(r.value.name)
    ensures r.Success? ==> Opt(j.fields, DescriptionField, NestedByName, at, AsString) == Success(r.value.description)
    ensures r.Success? ==> Opt(j.fields, ValueKeyField, NestedByName, at, AsString) == Success(r.value.valueKey)
    ensures r.Success? ==> Opt(j.fields, CommandLineFlagField, NestedByName, at, AsString) == Success(r.value.commandLineFlag)
    ensures r.Success? ==> Opt(j.fields, DefaultValueField, NestedByName, at, AsDefaultValue) == Success(r.value.defaultValue)
    ensures r.Success? ==> Opt(j.fields, OptionalField, NestedByName, at, AsBool) == Success(r.value.optional)
    ensures r.Success? ==> Opt(j.fields, SetByServerField, NestedByName, at, AsBool) == Success(r.value.setByServer)
  {
    match j
    case JObject(o) =>
      BuildOutputParameter(Req(o, IdField, NestedByName, at, AsString),
                           Req(o, TypeField, NestedByName, at, AsOutputType),
                           Opt(o, NameField, NestedByName, at, AsString),
                           Opt(o, DescriptionField, NestedByName, at, AsString),
                           Opt(o, ValueKeyField, NestedByName, at, AsString),
                           Opt(o, CommandLineFlagField, NestedByName, at, AsString),
                           Opt(o, DefaultValueField, NestedByName, at, AsDefaultValue),
                           Opt(o, OptionalField, NestedByName, at, AsBool),
                           Opt(o, SetByServerField, NestedByName, at, AsBool))
    case _ => NotObject(at)
  }

  /** Assembles an OutputParameter from its fields read one by one, reporting the first failure in declaration order. */
  function BuildOutputParameter(id: Result<string, Error>, kind: Result<OutputType, Error>,
                                name: Result<Option<string>, Error>, description: Result<Option<string>, Error>,
                                valueKey: Result<Option<string>, Error>, flag: Result<Option<string>, Error>,
                                defaultValue: Result<Option<DefaultValue>, Error>, optional: Result<Option<bool>, Error>,
                                setByServer: Result<Option<bool>, Error>): (r: Result<OutputParameter, Error>)
    ensures r.Success? <==> (&& id.Success? && kind.Success? && name.Success? && description.Success?
                             && valueKey.Success? && flag.Success? && defaultValue.Success? && optional.Success?
                             && setByServer.Success?)
    ensures r.Success? ==> (r.value == OutputParameter(id.value, kind.value, name.value, description.value,
                                                       valueKey.value, flag.value, defaultValue.value, optional.value,
                                                       setByServer.value))
  {
    var id :- id;
    var kind :- kind;
    var name :- name;
    var description :- description;
    var valueKey :- valueKey;
    var flag :- flag;
    var defaultValue :- defaultValue;
    var optional :- optional;
    var setByServer :- setByServer;
    Success(OutputParameter(id, kind, name, description, valueKey, flag, defaultValue, optional, setByServer))
  }

  // ---- Lists of records ----

  /** List[Author]: every item decodes as an Author, in order. */
  function AsAuthors(j: Json, at: Path): (r: Result<seq<Author>, Error>)
    ensures r.Success? <==> j.JArray? && forall i :: 0 <= i < |j.items| ==> DecodeAuthor(j.items[i], at + [Index(i)]).Success?
    ensures r.Success? ==>
      |r.value| == |j.items| && forall i :: 0 <= i < |j.items| ==> DecodeAuthor(j.items[i], at + [Index(i)]) == Success(r.value[i])
  {
    ListOf(j, at, DecodeAuthor)
  }

  /** List[Institution]: every item decodes as an Institution, in order. */
  function AsInstitutions(j: Json, at: Path): (r: Result<seq<Institution>, Error>)
    ensures r.Success? <==> j.JArray? && forall i :: 0 <= i < |j.items| ==> DecodeInstitution(j.items[i], at + [Index(i)]).Success?
    ensures r.Success? ==>
      |r.value| == |j.items| && forall i :: 0 <= i < |j.items| ==> DecodeInstitution(j.items[i], at + [Index(i)]) == Success(r.value[i])
  {
    ListOf(j, at, DecodeInstitution)
  }

  /** List[Citation] with min_length=1. */
  function AsCitations(j: Json, at: Path): (r: Result<seq<Citation>, Error>)
    ensures r.Success? <==> (
      j.JArray? && |j.items| >= 1
      && forall i :: 0 <= i < |j.items| ==> DecodeCitation(j.items[i], at + [Index(i)]).Success?)
    ensures r.Success? ==>
      |r.value| == |j.items| && forall i :: 0 <= i < |j.items| ==> DecodeCitation(j.items[i], at + [Index(i)]) == Success(r.value[i])
    ensures r.Success? ==> |r.value| >= 1
    ensures j == JArray([]) ==> r == Failure(Error(at, TooShort(1)))
  {
    var citations :- ListOf(j, at, DecodeCitation);
    if |citations| < 1 then Failure(Error(at, TooShort(1))) else Success(citations)
  }

  /** List[Parameter]: every item decodes as a Parameter, in order. */
  function AsParameters(j: Json, at: Path): (r: Result<seq<Parameter>, Error>)
    ensures r.Success? <==> j.JArray? && forall i :: 0 <= i < |j.items| ==> DecodeParameter(j.items[i], at + [Index(i)]).Success?
    ensures r.Success? ==>
      |r.value| == |j.items| && forall i :: 0 <= i < |j.items| ==> DecodeParameter(j.items[i], at + [Index(i)]) == Success(r.value[i])
  {
    ListOf(j, at, DecodeParameter)
  }

  /** List[OutputParameter]: every item decodes as an OutputParameter, in order. */
  function AsOutputParameters(j: Json, at: Path): (r: Result<seq<OutputParameter>, Error>)
    ensures r.Success? <==> j.JArray? && forall i :: 0 <= i < |j.items| ==> DecodeOutputParameter(j.items[i], at + [Index(i)]).Success?
    ensures r.Success? ==>
      |r.value| == |j.items| && forall i :: 0 <= i < |j.items| ==> DecodeOutputParameter(j.items[i], at + [Index(i)]) == Success(r.value[i])
  {
    ListOf(j, at, DecodeOutputParameter)
  }

  // ---- The root model ----

  /** Every required field of WorkflowSchema is given, under its alias or its Python name. */
  predicate HasRequiredFields(o: map<string, Json>) {
    && Lookup(o, NameField, WorkflowByName).Some?
    && Lookup(o, DescriptionField, WorkflowByName).Some?
    && Lookup(o, SchemaVersionField, WorkflowByName).Some?
    && Lookup(o, CitationsField, WorkflowByName).Some?
    && Lookup(o, ContainerImageField, WorkflowByName).Some?
    && Lookup(o, InputsField, WorkflowByName).Some?
    && Lookup(o, CommandLineField, WorkflowByName).Some?
  }

  /** Every field of WorkflowSchema reads: each required one is given and valid, each optional one absent, null or valid. */
  predicate WorkflowFieldsRead(o: map<string, Json>, at: Path) {
    && Req(o, NameField, WorkflowByName, at, AsString).Success?
    && Req(o, DescriptionField, WorkflowByName, at, AsString).Success?
    && Req(o, SchemaVersionField, WorkflowByName, at, AsString).Success?
    && Opt(o, AuthorsField, WorkflowByName, at, AsAuthors).Success?
    && Opt(o, InstitutionsField, WorkflowByName, at, AsInstitutions).Success?
    && Req(o, CitationsField, WorkflowByName, at, AsCitations).Success?
    && Req(o, ContainerImageField, WorkflowByName, at, DecodeContainerImage).Success?
    && Opt(o, ConfigurationField, WorkflowByName, at, DecodeConfiguration).Success?
    && Req(o, InputsField, WorkflowByName, at, AsParameters).Success?
    && Opt(o, OutputsField, WorkflowByName, at, AsOutputParameters).Success?
    && Req(o, CommandLineField, WorkflowByName, at, AsString).Success?
  }

  /** Each field of `w` is what its key in `o` reads as. */
  predicate WorkflowFieldsHold(o: map<string, Json>, at: Path, w: WorkflowSchema) {
    && Req(o, NameField, WorkflowByName, at, AsString) == Success(w.name)
    && Req(o, DescriptionField, WorkflowByName, at, AsString) == Success(w.description)
    && Req(o, SchemaVersionField, WorkflowByName, at, AsString) == Success(w.schemaVersion)
    && Opt(o, AuthorsField, WorkflowByName, at, AsAuthors) == Success(w.authors)
    && Opt(o, InstitutionsField, WorkflowByName, at, AsInstitutions) == Success(w.institutions)
    && Req(o, CitationsField, WorkflowByName, at, AsCitations) == Success(w.citations)
    && Req(o, ContainerImageField, WorkflowByName, at, DecodeContainerImage) == Success(w.containerImage)
    && Opt(o, ConfigurationField, WorkflowByName, at, DecodeConfiguration) == Success(w.configuration)
    && Req(o, InputsField, WorkflowByName, at, AsParameters) == Success(w.inputs)
    && Opt(o, OutputsField, WorkflowByName, at, AsOutputParameters) == Success(w.outputs)
    && Req(o, CommandLineField, WorkflowByName, at, AsString) == Success(w.commandLine)
  }

  function DecodeWorkflow(j: Json, at: Path): (r: Result<WorkflowSchema, Error>)
    ensures r.Success? <==> j.JObject? && WorkflowFieldsRead(j.fields, at)
    ensures r.Success? ==> j.JObject? && HasRequiredFields(j.fields)
    ensures r.Success? ==> ValidWorkflow(r.value)
    ensures r.Success? ==> WorkflowFieldsHold(j.fields, at, r.value)
  {
    match j
    case JObject(o) =>
      BuildWorkflow(Req(o, NameField, WorkflowByName, at, AsString),
                    Req(o, DescriptionField, WorkflowByName, at, AsString),
                    Req(o, SchemaVersionField, WorkflowByName, at, AsString),
                    Opt(o, AuthorsField, WorkflowByName, at, AsAuthors),
                    Opt(o, InstitutionsField, WorkflowByName, at, AsInstitutions),
                    Req(o, CitationsField, WorkflowByName, at, AsCitations),
                    Req(o, ContainerImageField, WorkflowByName, at, DecodeContainerImage),
                    Opt(o, ConfigurationField, WorkflowByName, at, DecodeConfiguration),
                    Req(o, InputsField, WorkflowByName, at, AsParameters),
                    Opt(o, OutputsField, WorkflowByName, at, AsOutputParameters),
                    Req(o, CommandLineField, WorkflowByName, at, AsString))
    case _ => NotObject(at)
  }

  /**
   * Assembles a WorkflowSchema from its fields read one by one, reporting the first
   * failure in declaration order.
   */
  function BuildWorkflow(name: Result<string, Error>, description: Result<string, Error>,
                         schemaVersion: Result<string, Error>, authors: Result<Option<seq<Author>>, Error>,
                         institutions: Result<Option<seq<Institution>>, Error>,
                         citations: Result<seq<Citation>, Error>, containerImage: Result<ContainerImage, Error>,
                         configuration: Result<Option<Configuration>, Error>,
                         inputs: Result<seq<Parameter>, Error>, outputs: Result<Option<seq<OutputParameter>>, Error>,
                         commandLine: Result<string, Error>): (r: Result<WorkflowSchema, Error>)
    ensures r.Success? <==> (&& name.Success? && description.Success? && schemaVersion.Success?
                             && authors.Success? && institutions.Success? && citations.Success?
                             && containerImage.Success? && configuration.Success? && inputs.Success?
                             && outputs.Success? && commandLine.Success?)
    ensures r.Success? ==> (r.value == WorkflowSchema(name.value, description.value, schemaVersion.value,
                                                      authors.value, institutions.value, citations.value,
                                                      containerImage.value, configuration.value, inputs.value,
                                                      outputs.value, commandLine.value))
  {
    var name :- name;
    var description :- description;
    var schemaVersion :- schemaVersion;
    var authors :- authors;
    var institutions :- institutions;
    var citations :- citations;
    var containerImage :- containerImage;
    var configuration :- configuration;
    var inputs :- inputs;
    var outputs :- outputs;
    var commandLine :- commandLine;
    Success(WorkflowSchema(name, description, schemaVersion, authors, institutions, citations,
                           containerImage, configuration, inputs, outputs, commandLine))
  }

  /** `WorkflowSchema.model_validate` on a loaded document. */
  function Decode(j: Json): (r: Result<WorkflowSchema, Error>)
    ensures r.Success? <==> j.JObject? && WorkflowFieldsRead(j.fields, [])
    ensures r.Success? ==> j.JObject? && HasRequiredFields(j.fields) && ValidWorkflow(r.value)
    ensures r.Success? ==> WorkflowFieldsHold(j.fields, [], r.value)
  {
    DecodeWorkflow(j, [])
  }
}

=== FILE: encoder.dfy ===
/**
 * Writing the records back to JSON with alias keys, as `model_dump_json(by_alias=True)`
 * does: every declared field is written, None as null, and an aliased field
 * under its alias only.
 */
module Encoder {
  import opened Wrappers
  import opened JsonValues
  import opened Models

  function Str(s: string): Json {
    JString(s)
  }

  function Flag(b: bool): Json {
    JBool(b)
  }

  function Numeric(n: Number): Json {
    JNumber(n)
  }

  function TextList(xs: seq<string>): Json {
    ArrayOf(xs, Str)
  }

  function EncodeDefaultValue(v: DefaultValue): (r: Json)
    ensures r.JString? <==> v.TextDefault?
    ensures r.JNumber? <==> v.NumberDefault?
    ensures r.JBool? <==> v.FlagDefault?
  {
    match v
    case TextDefault(s) => JString(s)
    case NumberDefault(n) => JNumber(n)
    case FlagDefault(b) => JBool(b)
  }

  function EncodeCapability(c: Capability): (r: Json)
    ensures r.JString? <==> c.MinCapability?
    ensures c.CapabilityList? ==> r.JArray? && |r.items| == |c.values|
  {
    match c
    case MinCapability(s) => JString(s)
    case CapabilityList(values) => TextList(values)
  }

  function EncodeAuthor(a: Author): (r: Json)
    ensures r.JObject? && r.fields.Keys == {"name", "email", "affiliations"}
  {
    JObject(map[
      NameField.Emitted() := JString(a.name),
      EmailField.Emitted() := OrNull(a.email, Str),
      AffiliationsField.Emitted() := OrNull(a.affiliations, TextList)])
  }

  function EncodeInstitution(i: Institution): (r: Json)
    ensures r.JObject? && r.fields.Keys == {"id", "name"}
  {
    JObject(map[
      IdField.Emitted() := JString(i.id),
      NameField.Emitted() := OrNull(i.name, Str)])
  }

  function EncodeCitation(c: Citation): (r: Json)
    ensures r.JObject? && r.fields.Keys == {"name", "doi", "license", "description"}
  {
    JObject(map[
      NameField.Emitted() := JString(c.name),
      DoiField.Emitted() := OrNull(c.doi, Str),
      LicenseField.Emitted() := JString(c.license),
      DescriptionField.Emitted() := OrNull(c.description, Str)])
  }

  function EncodeContainerImage(c: ContainerImage): (r: Json)
    ensures r.JObject? && r.fields.Keys == {"image", "type"}
  {
    JObject(map[
      ImageField.Emitted() := JString(c.image),
      TypeField.Emitted() := JString(c.kind.Name())])
  }

  function EncodeCudaRequirements(c: CudaRequirements): (r: Json)
    ensures r.JObject? && r.fields.Keys == {"device-memory-min", "cuda-compute-capability"}
  {
    JObject(map[
      DeviceMemoryMinField.Emitted() := OrNull(c.deviceMemoryMin, Numeric),
      CudaComputeCapabilityField.Emitted() := OrNull(c.cudaComputeCapability, EncodeCapability)])
  }

  function EncodeResources(r: Resources): (doc: Json)
    ensures doc.JObject?
  {
    JObject(map[
      NetworkingField.Emitted() := OrNull(r.networking, Flag),
      RamMinField.Emitted() := OrNull(r.ramMin, Numeric),
      CoresMinField.Emitted() := OrNull(r.coresMin, Numeric),
      GpuField.Emitted() := OrNull(r.gpu, Flag),
      CudaRequirementsField.Emitted() := OrNull(r.cudaRequirements, EncodeCudaRequirements),
      CpuAvxField.Emitted() := OrNull(r.cpuAvx, Flag),
      CpuAvx2Field.Emitted() := OrNull(r.cpuAvx2, Flag)])
  }

  function EncodeConfiguration(c: Configuration): (r: Json)
    ensures r.JObject? && r.fields.Keys == {"input_folder", "output_folder", "resources"}
  {
    JObject(map[
      InputFolderField.Emitted() := OrNull(c.inputFolder, Str),
      OutputFolderField.Emitted() := OrNull(c.outputFolder, Str),
      ResourcesField.Emitted() := OrNull(c.resources, EncodeResources)])
  }

  function EncodeFileParameter(p: FileParameter): (r: Json)
    ensures r.JObject? && r.fields.Keys == {"format"}
  {
    JObject(map[FormatField.Emitted() := JString(p.format)])
  }

  function EncodeImageParameter(p: ImageParameter): (r: Json)
    ensures r.JObject? && r.fields.Keys == {"sub-type", "format"}
  {
    JObject(map[
      SubTypeField.Emitted() := JString(p.subType.Name()),
      FormatField.Emitted() := JString(p.format.Name())])
  }

  function EncodeArrayParameter(p: ArrayParameter): (r: Json)
    ensures r.JObject? && r.fields.Keys == {"format"}
  {
    JObject(map[FormatField.Emitted() := JString(p.format.Name())])
  }

  function EncodeParameter(p: Parameter): (r: Json)
    ensures r.JObject?
  {
    JObject(map[
      IdField.Emitted() := JString(p.id),
      TypeField.Emitted() := JString(p.kind.Name()),
      NameField.Emitted() := OrNull(p.name, Str),
      DescriptionField.Emitted() := OrNull(p.description, Str),
      ValueKeyField.Emitted() := OrNull(p.valueKey, Str),
      CommandLineFlagField.Emitted() := OrNull(p.commandLineFlag, Str),
      DefaultValueField.Emitted() := OrNull(p.defaultValue, EncodeDefaultValue),
      OptionalField.Emitted() := OrNull(p.optional, Flag),
      SetByServerField.Emitted() := OrNull(p.setByServer, Flag),
      FormatField.Emitted() := OrNull(p.format, Str),
      SubTypeField.Emitted() := OrNull(p.subType, Str)])
  }

  function EncodeOutputParameter(p: OutputParameter): (r: Json)
    ensures r.JObject?
  {
    JObject(map[
      IdField.Emitted() := JString(p.id),
      TypeField.Emitted() := JString(p.kind.Name()),
      NameField.Emitted() := OrNull(p.name, Str),
      DescriptionField.Emitted() := OrNull(p.description, Str),
      ValueKeyField.Emitted() := OrNull(p.valueKey, Str),
      CommandLineFlagField.Emitted() := OrNull(p.commandLineFlag, Str),
      DefaultValueField.Emitted() := OrNull(p.defaultValue, EncodeDefaultValue),
      OptionalField.Emitted() := OrNull(p.optional, Flag),
      SetByServerField.Emitted() := OrNull(p.setByServer, Flag)])
  }

  function AuthorList(xs: seq<Author>): Json {
    ArrayOf(xs, EncodeAuthor)
  }

  function InstitutionList(xs: seq<Institution>): Json {
    ArrayOf(xs, EncodeInstitution)
  }

  function ParameterList(xs: seq<Parameter>): Json {
    ArrayOf(xs, EncodeParameter)
  }

  function OutputParameterList(xs: seq<OutputParameter>): Json {
    ArrayOf(xs, EncodeOutputParameter)
  }

  /** The document `parse --json` serialises: alias keys, never the Python names they replace. */
  function EncodeByAlias(w: WorkflowSchema): (r: Json)
    ensures r.JObject?
  {
    JObject(map[
      NameField.Emitted() := JString(w.name),
      DescriptionField.Emitted() := JString(w.description),
      SchemaVersionField.Emitted() := JString(w.schemaVersion),
      AuthorsField.Emitted() := OrNull(w.authors, AuthorList),
      InstitutionsField.Emitted() := OrNull(w.institutions, InstitutionList),
      CitationsField.Emitted() := ArrayOf(w.citations, EncodeCitation),
      ContainerImageField.Emitted() := EncodeContainerImage(w.containerImage),
      ConfigurationField.Emitted() := OrNull(w.configuration, EncodeConfiguration),
      InputsField.Emitted() := ParameterList(w.inputs),
      OutputsField.Emitted() := OrNull(w.outputs, OutputParameterList),
      CommandLineField.Emitted() := JString(w.commandLine)])
  }

  // ---- The keys written ----

  /** `--json` writes the eleven WorkflowSchema fields under their aliases, never under the Python names they replace. */
  lemma WorkflowWrittenKeys(w: WorkflowSchema)
    ensures EncodeByAlias(w).fields.Keys == {"name", "description", "schema-version", "authors", "institutions",
                                             "citations", "container-image", "configuration", "inputs", "outputs",
                                             "command-line"}
  {
  }

  lemma ParameterWrittenKeys(p: Parameter)
    ensures EncodeParameter(p).fields.Keys == {"id", "type", "name", "description", "value-key", "command-line-flag",
                                               "default-value", "optional", "set-by-server", "format", "sub-type"}
  {
  }

  lemma OutputParameterWrittenKeys(p: OutputParameter)
    ensures EncodeOutputParameter(p).fields.Keys == {"id", "type", "name", "description", "value-key",
                                                     "command-line-flag", "default-value", "optional", "set-by-server"}
  {
  }

  lemma ResourcesWrittenKeys(r: Resources)
    ensures EncodeResources(r).fields.Keys == {"networking", "ram-min", "cores-min", "gpu", "cuda-requirements",
                                               "cpuAVX", "cpuAVX2"}
  {
  }

  // ---- Where each field is written ----

  lemma WorkflowEntries(w: WorkflowSchema)
    ensures EncodeByAlias(w).JObject?
    ensures Writes(EncodeByAlias(w).fields, NameField, JString(w.name))
    ensures Writes(EncodeByAlias(w).fields, DescriptionField, JString(w.description))
    ensures Writes(EncodeByAlias(w).fields, SchemaVersionField, JString(w.schemaVersion))
    ensures Writes(EncodeByAlias(w).fields, AuthorsField, OrNull(w.authors, AuthorList))
    ensures Writes(EncodeByAlias(w).fields, InstitutionsField, OrNull(w.institutions, InstitutionList))
    ensures Writes(EncodeByAlias(w).fields, CitationsField, ArrayOf(w.citations, EncodeCitation))
    ensures Writes(EncodeByAlias(w).fields, ContainerImageField, EncodeContainerImage(w.containerImage))
    ensures Writes(EncodeByAlias(w).fields, ConfigurationField, OrNull(w.configuration, EncodeConfiguration))
    ensures Writes(EncodeByAlias(w).fields, InputsField, ParameterList(w.inputs))
    ensures Writes(EncodeByAlias(w).fields, OutputsField, OrNull(w.outputs, OutputParameterList))
    ensures Writes(EncodeByAlias(w).fields, CommandLineField, JString(w.commandLine))
  {
    WorkflowEntriesHead(w);
    WorkflowEntriesTail(w);
  }

  lemma WorkflowEntriesHead(w: WorkflowSchema)
    ensures EncodeByAlias(w).JObject?
    ensures Writes(EncodeByAlias(w).fields, NameField, JString(w.name))
    ensures Writes(EncodeByAlias(w).fields, DescriptionField, JString(w.description))
    ensures Writes(EncodeByAlias(w).fields, SchemaVersionField, JString(w.schemaVersion))
    ensures Writes(EncodeByAlias(w).fields, AuthorsField, OrNull(w.authors, AuthorList))
    ensures Writes(EncodeByAlias(w).fields, InstitutionsField, OrNull(w.institutions, InstitutionList))
  {
  }

  lemma WorkflowEntriesTail(w: WorkflowSchema)
    ensures EncodeByAlias(w).JObject?
    ensures Writes(EncodeByAlias(w).fields, CitationsField, ArrayOf(w.citations, EncodeCitation))
    ensures Writes(EncodeByAlias(w).fields, ContainerImageField, EncodeContainerImage(w.containerImage))
    ensures Writes(EncodeByAlias(w).fields, ConfigurationField, OrNull(w.configuration, EncodeConfiguration))
    ensures Writes(EncodeByAlias(w).fields, InputsField, ParameterList(w.inputs))
    ensures Writes(EncodeByAlias(w).fields, OutputsField, OrNull(w.outputs, OutputParameterList))
    ensures Writes(EncodeByAlias(w).fields, CommandLineField, JString(w.commandLine))
  {
  }

  lemma ParameterEntries(p: Parameter)
    ensures EncodeParameter(p).JObject?
    ensures Writes(EncodeParameter(p).fields, IdField, JString(p.id))
    ensures Writes(EncodeParameter(p).fields, TypeField, JString(p.kind.Name()))
    ensures Writes(EncodeParameter(p).fields, NameField, OrNull(p.name, Str))
    ensures Writes(EncodeParameter(p).fields, DescriptionField, OrNull(p.description, Str))
    ensures Writes(EncodeParameter(p).fields, ValueKeyField, OrNull(p.valueKey, Str))
    ensures Writes(EncodeParameter(p).fields, CommandLineFlagField, OrNull(p.commandLineFlag, Str))
    ensures Writes(EncodeParameter(p).fields, DefaultValueField, OrNull(p.defaultValue, EncodeDefaultValue))
    ensures Writes(EncodeParameter(p).fields, OptionalField, OrNull(p.optional, Flag))
    ensures Writes(EncodeParameter(p).fields, SetByServerField, OrNull(p.setByServer, Flag))
    ensures Writes(EncodeParameter(p).fields, FormatField, OrNull(p.format, Str))
    ensures Writes(EncodeParameter(p).fields, SubTypeField, OrNull(p.subType, Str))
  {
    ParameterEntriesHead(p);
    ParameterEntriesTail(p);
  }

  lemma ParameterEntriesHead(p: Parameter)
    ensures EncodeParameter(p).JObject?
    ensures Writes(EncodeParameter(p).fields, IdField, JString(p.id))
    ensures Writes(EncodeParameter(p).fields, TypeField, JString(p.kind.Name()))
    ensures Writes(EncodeParameter(p).fields, NameField, OrNull(p.name, Str))
    ensures Writes(EncodeParameter(p).fields, DescriptionField, OrNull(p.description, Str))
    ensures Writes(EncodeParameter(p).fields, ValueKeyField, OrNull(p.valueKey, Str))
  {
  }

  lemma ParameterEntriesTail(p: Parameter)
    ensures EncodeParameter(p).JObject?
    ensures Writes(EncodeParameter(p).fields, CommandLineFlagField, OrNull(p.commandLineFlag, Str))
    ensures Writes(EncodeParameter(p).fields, DefaultValueField, OrNull(p.defaultValue, EncodeDefaultValue))
    ensures Writes(EncodeParameter(p).fields, OptionalField, OrNull(p.optional, Flag))
    ensures Writes(EncodeParameter(p).fields, SetByServerField, OrNull(p.setByServer, Flag))
    ensures Writes(EncodeParameter(p).fields, FormatField, OrNull(p.format, Str))
    ensures Writes(EncodeParameter(p).fields, SubTypeField, OrNull(p.subType, Str))
  {
  }

  lemma OutputParameterEntries(p: OutputParameter)
    ensures EncodeOutputParameter(p).JObject?
    ensures Writes(EncodeOutputParameter(p).fields, IdField, JString(p.id))
    ensures Writes(EncodeOutputParameter(p).fields, TypeField, JString(p.kind.Name()))
    ensures Writes(EncodeOutputParameter(p).fields, NameField, OrNull(p.name, Str))
    ensures Writes(EncodeOutputParameter(p).fields, DescriptionField, OrNull(p.description, Str))
    ensures Writes(EncodeOutputParameter(p).fields, ValueKeyField, OrNull(p.valueKey, Str))
    ensures Writes(EncodeOutputParameter(p).fields, CommandLineFlagField, OrNull(p.commandLineFlag, Str))
    ensures Writes(EncodeOutputParameter(p).fields, DefaultValueField, OrNull(p.defaultValue, EncodeDefaultValue))
    ensures Writes(EncodeOutputParameter(p).fields, OptionalField, OrNull(p.optional, Flag))
    ensures Writes(EncodeOutputParameter(p).fields, SetByServerField, OrNull(p.setByServer, Flag))
  {
  }

  lemma ResourcesEntries(r: Resources)
    ensures EncodeResources(r).JObject?
    ensures Writes(EncodeResources(r).fields, NetworkingField, OrNull(r.networking, Flag))
    ensures Writes(EncodeResources(r).fields, RamMinField, OrNull(r.ramMin, Numeric))
    ensures Writes(EncodeResources(r).fields, CoresMinField, OrNull(r.coresMin, Numeric))
    ensures Writes(EncodeResources(r).fields, GpuField, OrNull(r.gpu, Flag))
    ensures Writes(EncodeResources(r).fields, CudaRequirementsField, OrNull(r.cudaRequirements, EncodeCudaRequirements))
    ensures Writes(EncodeResources(r).fields, CpuAvxField, OrNull(r.cpuAvx, Flag))
    ensures Writes(EncodeResources(r).fields, CpuAvx2Field, OrNull(r.cpuAvx2, Flag))
  {
  }
}

=== FILE: json_values.dfy ===
/**
 * The loaded JSON document, the validation errors the workflow models report,
 * and the generic building blocks every model decoder is made of: looking a
 * field up under its alias or its Python name, required and optional fields,
 * scalar kinds, string literals and lists.
 */
module JsonValues {
  import opened Wrappers

  /** A JSON number kept as the token the document spelled; nothing computes with it. */
  datatype Number = Number(token: string)

  /** A parsed JSON document: objects are dictionaries, so a key occurs once. */
  datatype Json =
    | JNull
    | JBool(b: bool)
    | JNumber(n: Number)
    | JString(s: string)
    | JArray(items: seq<Json>)
    | JObject(fields: map<string, Json>)

  /** One step from the document root: an object key or an array index. */
  datatype Segment = Key(key: string) | Index(index: nat)

  type Path = seq<Segment>

  /** The kinds of JSON value a field can demand. */
  datatype Kind =
    | ObjectKind
    | ArrayKind
    | StringKind
    | BoolKind
    | NumberKind
    | StringOrArrayKind
    | ScalarKind

  datatype Problem =
    | Missing
    | WrongKind(expected: Kind)
    | NotAllowed(allowed: seq<string>)
    | TooShort(minLength: nat)

  /** A validation error: where it happened and what was wrong there. */
  datatype Error = Error(at: Path, problem: Problem)

  /**
   * A declared field: its Python name and, when the declaration gives one,
   * its alias. The alias is the key written on output; on input the alias is
   * always accepted and the Python name only where the model populates by name.
   */
  datatype FieldKey = FieldKey(name: string, alias: Option<string>) {

    function Emitted(): string {
      if alias.Some? then alias.value else name
    }

    predicate Accepts(key: string, byName: bool) {
      if alias.Some? then key == alias.value || (byName && key == name) else key == name
    }
  }

  /**
   * The value a field is given in an object: the value under the alias if
   * that key is present, else (when populating by name) the value under the
   * Python name, else nothing.
   */
  function Lookup(o: map<string, Json>, k: FieldKey, byName: bool): (r: Option<Json>)
    ensures k.Emitted() in o ==> r == Some(o[k.Emitted()])
  {
    match k.alias
    case Some(a) =>
      if a in o then Some(o[a])
      else if byName && k.name in o then Some(o[k.name])
      else None
    case None =>
      if k.name in o then Some(o[k.name]) else None
  }

  /** Lookup finds a value exactly when the object has a key the field accepts, and takes it from such a key. */
  lemma LookupFindsAcceptedKey(o: map<string, Json>, k: FieldKey, byName: bool)
    ensures Lookup(o, k, byName).None? <==> forall key :: key in o ==> !k.Accepts(key, byName)
    ensures Lookup(o, k, byName).Some? ==>
      exists key :: key in o && k.Accepts(key, byName) && o[key] == Lookup(o, k, byName).value
  {
  }

  /** An Optional field counts as not given when it is absent or null. */
  predicate Absent(v: Option<Json>) {
    v.None? || v.value.JNull?
  }

  /** A field declared with `...` (no default): absence is an error. */
  function Req<T>(o: map<string, Json>, k: FieldKey, byName: bool, at: Path,
                  kind: (Json, Path) -> Result<T, Error>): (r: Result<T, Error>)
    ensures Lookup(o, k, byName).None? ==> r == Failure(Error(at + [Key(k.Emitted())], Missing))
    ensures r.Success? <==>
      (Lookup(o, k, byName).Some? && kind(Lookup(o, k, byName).value, at + [Key(k.Emitted())]).Success?)
    ensures r.Success? ==>
      (Lookup(o, k, byName).Some? && kind(Lookup(o, k, byName).value, at + [Key(k.Emitted())]) == Success(r.value))
  {
    match Lookup(o, k, byName)
    case None => Failure(Error(at + [Key(k.Emitted())], Missing))
    case Some(j) => kind(j, at + [Key(k.Emitted())])
  }

  /** A field declared `Optional[...] = None`: absent or null gives None. */
  function Opt<T>(o: map<string, Json>, k: FieldKey, byName: bool, at: Path,
                  kind: (Json, Path) -> Result<T, Error>): (r: Result<Option<T>, Error>)
    ensures Absent(Lookup(o, k, byName)) ==> r == Success(None)
    ensures r.Success? <==>
      (Absent(Lookup(o, k, byName)) || kind(Lookup(o, k, byName).value, at + [Key(k.Emitted())]).Success?)
    ensures r.Success? ==> (r.value.None? <==> Absent(Lookup(o, k, byName)))
    ensures r.Success? && r.value.Some? ==>
      kind(Lookup(o, k, byName).value, at + [Key(k.Emitted())]) == Success(r.value.value)
  {
    match Lookup(o, k, byName)
    case None => Success(None)
    case Some(j) =>
      if j.JNull? then Success(None)
      else
        var v :- kind(j, at + [Key(k.Emitted())]);
        Success(Some(v))
  }

  function AsString(j: Json, at: Path): (r: Result<string, Error>)
    ensures r.Success? <==> j.JString?
    ensures r.Success? ==> r.value == j.s
  {
    if j.JString? then Success(j.s) else Failure(Error(at, WrongKind(StringKind)))
  }

  /** A required string field reads as `s` only when the string `s` itself stands under one of its keys. */
  lemma StringFieldRead(o: map<string, Json>, k: FieldKey, byName: bool, at: Path, s: string)
    requires Req(o, k, byName, at, AsString) == Success(s)
    ensures Lookup(o, k, byName) == Some(JString(s))
  {
  }

  function AsBool(j: Json, at: Path): (r: Result<bool, Error>)
    ensures r.Success? <==> j.JBool?
    ensures r.Success? ==> r.value == j.b
  {
    if j.JBool? then Success(j.b) else Failure(Error(at, WrongKind(BoolKind)))
  }

  function AsNumber(j: Json, at: Path): (r: Result<Number, Error>)
    ensures r.Success? <==> j.JNumber?
    ensures r.Success? ==> r.value == j.n
  {
    if j.JNumber? then Success(j.n) else Failure(Error(at, WrongKind(NumberKind)))
  }

  /**
   * A `Literal[...]` field: a string that `named` recognises. `names` is the
   * declared list, reported when the string is not one of them.
   */
  function AsLiteral<T>(j: Json, at: Path, names: seq<string>, named: string -> Option<T>): (r: Result<T, Error>)
    ensures r.Success? <==> j.JString? && named(j.s).Some?
    ensures r.Success? ==> named(j.s) == Some(r.value)
  {
    if !j.JString? then Failure(Error(at, WrongKind(StringKind)))
    else match named(j.s)
      case Some(v) => Success(v)
      case None => Failure(Error(at, NotAllowed(names)))
  }

  /** A `List[...]` field: a JSON array each of whose items decodes. */
  function ListOf<T>(j: Json, at: Path, item: (Json, Path) -> Result<T, Error>): (r: Result<seq<T>, Error>)
    ensures r.Success? <==> j.JArray? && forall i :: 0 <= i < |j.items| ==> item(j.items[i], at + [Index(i)]).Success?
    ensures r.Success? ==>
      (|r.value| == |j.items| && forall i :: 0 <= i < |j.items| ==> item(j.items[i], at + [Index(i)]) == Success(r.value[i]))
  {
    match j
    case JArray(items) => Items(items, 0, at, item)
    case _ => Failure(Error(at, WrongKind(ArrayKind)))
  }

  /** Decodes items[from..], reporting each item at its index in the whole array. */
  function Items<T>(items: seq<Json>, from: nat, at: Path, item: (Json, Path) -> Result<T, Error>): (r: Result<seq<T>, Error>)
    requires from <= |items|
    ensures r.Success? <==> forall i :: from <= i < |items| ==> item(items[i], at + [Index(i)]).Success?
    ensures r.Success? ==>
      (|r.value| == |items| - from && forall i :: from <= i < |items| ==> item(items[i], at + [Index(i)]) == Success(r.value[i - from]))
    decreases |items| - from
  {
    if from == |items| then Success([])
    else
      var x :- item(items[from], at + [Index(from)]);
      var rest :- Items(items, from + 1, at, item);
      Success([x] + rest)
  }

  function AsStringList(j: Json, at: Path): (r: Result<seq<string>, Error>)
    ensures r.Success? <==> j.JArray? && forall i :: 0 <= i < |j.items| ==> j.items[i].JString?
    ensures r.Success? ==> |r.value| == |j.items| && forall i :: 0 <= i < |j.items| ==> j.items[i] == JString(r.value[i])
  {
    ListOf(j, at, AsString)
  }

  /** The encoder's side of a list field: one JSON item per element, in order. */
  function ArrayOf<T>(xs: seq<T>, enc: T -> Json): (r: Json)
    ensures r.JArray? && |r.items| == |xs|
    ensures forall i :: 0 <= i < |xs| ==> r.items[i] == enc(xs[i])
  {
    JArray(seq(|xs|, i requires 0 <= i < |xs| => enc(xs[i])))
  }

  /** The encoder's side of an Optional field: None is written as null. */
  function OrNull<T>(v: Option<T>, enc: T -> Json): (r: Json)
    ensures r.JNull? <==> v.None? || enc(v.value).JNull?
    ensures v.Some? ==> r == enc(v.value)
  {
    match v
    case None => JNull
    case Some(x) => enc(x)
  }

  /** Decoding a list written by ArrayOf gives the list back when each item round-trips. */
  lemma {:induction false} ListRoundTrip<T>(xs: seq<T>, enc: T -> Json, item: (Json, Path) -> Result<T, Error>, at: Path)
    requires forall i, p :: 0 <= i < |xs| ==> item(enc(xs[i]), p) == Success(xs[i])
    ensures ListOf(ArrayOf(xs, enc), at, item) == Success(xs)
  {
    var j := ArrayOf(xs, enc);
    forall i | 0 <= i < |j.items|
      ensures item(j.items[i], at + [Index(i)]) == Success(xs[i])
    {
    }
    var r := ListOf(j, at, item);
    assert r.Success?;
    assert r.value == xs;
  }

  /** Object `o` holds `v` under the key `k` is emitted as. */
  predicate Writes(o: map<string, Json>, k: FieldKey, v: Json) {
    k.Emitted() in o && o[k.Emitted()] == v
  }

  /** An Optional field written by OrNull under its emitted key reads back as the value written. */
  lemma OptWritten<T>(o: map<string, Json>, k: FieldKey, byName: bool, at: Path,
                      kind: (Json, Path) -> Result<T, Error>, v: Option<T>, enc: T -> Json)
    requires Writes(o, k, OrNull(v, enc))
    requires v.Some? ==> !enc(v.value).JNull? && kind(enc(v.value), at + [Key(k.Emitted())]) == Success(v.value)
    ensures Opt(o, k, byName, at, kind) == Success(v)
  {
  }

  /** A required field written under its emitted key reads back as the value written. */
  lemma ReqWritten<T>(o: map<string, Json>, k: FieldKey, byName: bool, at: Path,
                      kind: (Json, Path) -> Result<T, Error>, v: T, enc: T -> Json)
    requires Writes(o, k, enc(v))
    requires kind(enc(v), at + [Key(k.Emitted())]) == Success(v)
    ensures Req(o, k, byName, at, kind) == Success(v)
  {
  }
}

=== FILE: models.dfy ===
/**
 * The workflow document's records, one datatype per model class of
 * src/biomero_schema/models.py, the `Literal` domains as enumerations, and
 * the table of declared field keys with their aliases.
 *
 * The source's `type` fields are called `kind` here, since `type` is a
 * reserved word; their JSON key stays "type".
 */
module Models {
  import opened Wrappers
  import opened JsonValues

  // ---- Literal domains ----

  /** ContainerImage.type: Literal["oci", "singularity"]. */
  datatype ContainerKind = Oci | Singularity {
    function Name(): (s: string)
      ensures s in ContainerKindNames && ContainerKindNamed(s) == Some(this)
    {
      match this
      case Oci => "oci"
      case Singularity => "singularity"
    }
  }

  const ContainerKindNames: seq<string> := ["oci", "singularity"]

  function ContainerKindNamed(s: string): (r: Option<ContainerKind>)
    ensures r.Some? <==> s in ContainerKindNames
  {
    if s == "oci" then Some(Oci)
    else if s == "singularity" then Some(Singularity)
    else None
  }

  /** Parameter.type: the nine literals, "Number" and "number" being different. */
  datatype ParameterType =
    | TypeNumber | TypeString | TypeInteger | TypeFloat | TypeBoolean
    | TypeLowerString | TypeFile | TypeImage | TypeArray
  {
    function Name(): (s: string)
      ensures s in ParameterTypeNames && ParameterTypeNamed(s) == Some(this)
    {
      match this
      case TypeNumber => "Number"
      case TypeString => "String"
      case TypeInteger => "integer"
      case TypeFloat => "float"
      case TypeBoolean => "boolean"
      case TypeLowerString => "string"
      case TypeFile => "file"
      case TypeImage => "image"
      case TypeArray => "array"
    }
  }

  const ParameterTypeNames: seq<string> :=
    ["Number", "String", "integer", "float", "boolean", "string", "file", "image", "array"]

  function ParameterTypeNamed(s: string): (r: Option<ParameterType>)
    ensures r.Some? <==> s in ParameterTypeNames
  {
    if s == "Number" then Some(TypeNumber)
    else if s == "String" then Some(TypeString)
    else if s == "integer" then Some(TypeInteger)
    else if s == "float" then Some(TypeFloat)
    else if s == "boolean" then Some(TypeBoolean)
    else if s == "string" then Some(TypeLowerString)
    else if s == "file" then Some(TypeFile)
    else if s == "image" then Some(TypeImage)
    else if s == "array" then Some(TypeArray)
    else None
  }

  /** OutputParameter.type: Literal["Number", "String"]. */
  datatype OutputType = OutputNumber | OutputString {
    function Name(): (s: string)
      ensures s in OutputTypeNames && OutputTypeNamed(s) == Some(this)
    {
      match this
      case OutputNumber => "Number"
      case OutputString => "String"
    }
  }

  const OutputTypeNames: seq<string> := ["Number", "String"]

  function OutputTypeNamed(s: string): (r: Option<OutputType>)
    ensures r.Some? <==> s in OutputTypeNames
  {
    if s == "Number" then Some(OutputNumber)
    else if s == "String" then Some(OutputString)
    else None
  }

  /** ImageParameter.sub_type. */
  datatype ImageSubType = Grayscale | Color | Binary | Labeled | Class {
    function Name(): (s: string)
      ensures s in ImageSubTypeNames && ImageSubTypeNamed(s) == Some(this)
    {
      match this
      case Grayscale => "grayscale"
      case Color => "color"
      case Binary => "binary"
      case Labeled => "labeled"
      case Class => "class"
    }
  }

  const ImageSubTypeNames: seq<string> := ["grayscale", "color", "binary", "labeled", "class"]

  function ImageSubTypeNamed(s: string): (r: Option<ImageSubType>)
    ensures r.Some? <==> s in ImageSubTypeNames
  {
    if s == "grayscale" then Some(Grayscale)
    else if s == "color" then Some(Color)
    else if s == "binary" then Some(Binary)
    else if s == "labeled" then Some(Labeled)
    else if s == "class" then Some(Class)
    else None
  }

  /** ImageParameter.format. */
  datatype ImageFormat = Tif | Png | Jpg | Jpeg | Tiff | OmeTiff {
    function Name(): (s: string)
      ensures s in ImageFormatNames && ImageFormatNamed(s) == Some(this)
    {
      match this
      case Tif => "tif"
      case Png => "png"
      case Jpg => "jpg"
      case Jpeg => "jpeg"
      case Tiff => "tiff"
      case OmeTiff => "ometiff"
    }
  }

  const ImageFormatNames: seq<string> := ["tif", "png", "jpg", "jpeg", "tiff", "ometiff"]

  function ImageFormatNamed(s: string): (r: Option<ImageFormat>)
    ensures r.Some? <==> s in ImageFormatNames
  {
    if s == "tif" then Some(Tif)
    else if s == "png" then Some(Png)
    else if s == "jpg" then Some(Jpg)
    else if s == "jpeg" then Some(Jpeg)
    else if s == "tiff" then Some(Tiff)
    else if s == "ometiff" then Some(OmeTiff)
    else None
  }

  /** ArrayParameter.format. */
  datatype ArrayFormat = Npy | Npz {
    function Name(): (s: string)
      ensures s in ArrayFormatNames && ArrayFormatNamed(s) == Some(this)
    {
      match this
      case Npy => "npy"
      case Npz => "npz"
    }
  }

  const ArrayFormatNames: seq<string> := ["npy", "npz"]

  function ArrayFormatNamed(s: string): (r: Option<ArrayFormat>)
    ensures r.Some? <==> s in ArrayFormatNames
  {
    if s == "npy" then Some(Npy)
    else if s == "npz" then Some(Npz)
    else None
  }

  // ---- Unions ----

  /** default_value: Union[str, float, bool]; a JSON value selects its own member. */
  datatype DefaultValue = TextDefault(s: string) | NumberDefault(n: Number) | FlagDefault(b: bool)

  /** cuda_compute_capability: Union[str, List[str]]. */
  datatype Capability = MinCapability(s: string) | CapabilityList(values: seq<string>)

  // ---- Records ----

  datatype Author = Author(
    name: string,
    email: Option<string>,
    affiliations: Option<seq<string>>)

  datatype Institution = Institution(
    id: string,
    name: Option<string>)

  datatype Citation = Citation(
    name: string,
    doi: Option<string>,
    license: string,
    description: Option<string>)

  datatype ContainerImage = ContainerImage(
    image: string,
    kind: ContainerKind)

  datatype CudaRequirements = CudaRequirements(
    deviceMemoryMin: Option<Number>,
    cudaComputeCapability: Option<Capability>)

  datatype Resources = Resources(
    networking: Option<bool>,
    ramMin: Option<Number>,
    coresMin: Option<Number>,
    gpu: Option<bool>,
    cudaRequirements: Option<CudaRequirements>,
    cpuAvx: Option<bool>,
    cpuAvx2: Option<bool>)

  datatype Configuration = Configuration(
    inputFolder: Option<string>,
    outputFolder: Option<string>,
    resources: Option<Resources>)

  datatype FileParameter = FileParameter(format: string)

  datatype ImageParameter = ImageParameter(subType: ImageSubType, format: ImageFormat)

  datatype ArrayParameter = ArrayParameter(format: ArrayFormat)

  /** An input parameter; its format and sub_type are free strings, unlike ImageParameter's. */
  datatype Parameter = Parameter(
    id: string,
    kind: ParameterType,
    name: Option<string>,
    description: Option<string>,
    valueKey: Option<string>,
    commandLineFlag: Option<string>,
    defaultValue: Option<DefaultValue>,
    optional: Option<bool>,
    setByServer: Option<bool>,
    format: Option<string>,
    subType: Option<string>)

  datatype OutputParameter = OutputParameter(
    id: string,
    kind: OutputType,
    name: Option<string>,
    description: Option<string>,
    valueKey: Option<string>,
    commandLineFlag: Option<string>,
    defaultValue: Option<DefaultValue>,
    optional: Option<bool>,
    setByServer: Option<bool>)

  datatype WorkflowSchema = WorkflowSchema(
    name: string,
    description: string,
    schemaVersion: string,
    authors: Option<seq<Author>>,
    institutions: Option<seq<Institution>>,
    citations: seq<Citation>,
    containerImage: ContainerImage,
    configuration: Option<Configuration>,
    inputs: seq<Parameter>,
    outputs: Option<seq<OutputParameter>>,
    commandLine: string)

  /** What a WorkflowSchema value promises beyond its field types: min_length=1 on citations. */
  predicate ValidWorkflow(w: WorkflowSchema) {
    |w.citations| >= 1
  }

  // ---- Field keys and the alias table ----

  const NameField := FieldKey("name", None)
  const EmailField := FieldKey("email", None)
  const AffiliationsField := FieldKey("affiliations", None)
  const IdField := FieldKey("id", None)
  const DoiField := FieldKey("doi", None)
  const LicenseField := FieldKey("license", None)
  const DescriptionField := FieldKey("description", None)
  const ImageField := FieldKey("image", None)
  const TypeField := FieldKey("type", None)
  const DeviceMemoryMinField := FieldKey("device_memory_min", Some("device-memory-min"))
  const CudaComputeCapabilityField := FieldKey("cuda_compute_capability", Some("cuda-compute-capability"))
  const NetworkingField := FieldKey("networking", None)
  const RamMinField := FieldKey("ram_min", Some("ram-min"))
  const CoresMinField := FieldKey("cores_min", Some("cores-min"))
  const GpuField := FieldKey("gpu", None)
  const CudaRequirementsField := FieldKey("cuda_requirements", Some("cuda-requirements"))
  const CpuAvxField := FieldKey("cpuAVX", None)
  const CpuAvx2Field := FieldKey("cpuAVX2", None)
  const InputFolderField := FieldKey("input_folder", None)
  const OutputFolderField := FieldKey("output_folder", None)
  const ResourcesField := FieldKey("resources", None)
  const FormatField := FieldKey("format", None)
  const SubTypeField := FieldKey("sub_type", Some("sub-type"))
  const ValueKeyField := FieldKey("value_key", Some("value-key"))
  const CommandLineFlagField := FieldKey("command_line_flag", Some("command-line-flag"))
  const DefaultValueField := FieldKey("default_value", Some("default-value"))
  const OptionalField := FieldKey("optional", None)
  const SetByServerField := FieldKey("set_by_server", Some("set-by-server"))
  const SchemaVersionField := FieldKey("schema_version", Some("schema-version"))
  const AuthorsField := FieldKey("authors", None)
  const InstitutionsField := FieldKey("institutions", None)
  const CitationsField := FieldKey("citations", None)
  const ContainerImageField := FieldKey("container_image", Some("container-image"))
  const ConfigurationField := FieldKey("configuration", None)
  const InputsField := FieldKey("inputs", None)
  const OutputsField := FieldKey("outputs", None)
  const CommandLineField := FieldKey("command_line", Some("command-line"))

  /** WorkflowSchema's fields, in declaration order. */
  const WorkflowFields: seq<FieldKey> := [
    NameField, DescriptionField, SchemaVersionField, AuthorsField, InstitutionsField,
    CitationsField, ContainerImageField, ConfigurationField, InputsField, OutputsField,
    CommandLineField]

  /** The WorkflowSchema fields declared with `...`, i.e. without a default. */
  const WorkflowRequired: seq<FieldKey> := [
    NameField, DescriptionField, SchemaVersionField, CitationsField, ContainerImageField,
    InputsField, CommandLineField]

  /** Parameter's fields, in declaration order. */
  const ParameterFields: seq<FieldKey> := [
    IdField, TypeField, NameField, DescriptionField, ValueKeyField, CommandLineFlagField,
    DefaultValueField, OptionalField, SetByServerField, FormatField, SubTypeField]
}

=== FILE: round_trip.dfy ===
/**
 * The alias encoder and the decoder are inverse: every record written with
 * alias keys is read back unchanged, because each key the encoder emits is
 * one the decoder accepts, and None, written as null, reads back as None.
 */
module RoundTrip {
  import opened Wrappers
  import opened JsonValues
  import opened Models
  import opened Decoder
  import opened Encoder

  lemma {:induction false} TextListRoundTrip(xs: seq<string>, at: Path)
    ensures AsStringList(TextList(xs), at) == Success(xs)
  {
    ListRoundTrip(xs, Str, AsString, at);
  }

  lemma {:induction false} AuthorRoundTrip(a: Author, at: Path)
    ensures DecodeAuthor(EncodeAuthor(a), at) == Success(a)
  {
    if a.affiliations.Some? {
      TextListRoundTrip(a.affiliations.value, at + [Key("affiliations")]);
    }
  }

  lemma InstitutionRoundTrip(i: Institution, at: Path)
    ensures DecodeInstitution(EncodeInstitution(i), at) == Success(i)
  {
  }

  lemma CitationRoundTrip(c: Citation, at: Path)
    ensures DecodeCitation(EncodeCitation(c), at) == Success(c)
  {
  }

  lemma ContainerImageRoundTrip(c: ContainerImage, at: Path)
    ensures DecodeContainerImage(EncodeContainerImage(c), at) == Success(c)
  {
  }

  lemma {:induction false} CapabilityRoundTrip(c: Capability, at: Path)
    ensures AsCapability(EncodeCapability(c), at) == Success(c)
  {
    if c.CapabilityList? {
      TextListRoundTrip(c.values, at);
    }
  }

  lemma {:induction false} CudaRequirementsRoundTrip(c: CudaRequirements, at: Path)
    ensures DecodeCudaRequirements(EncodeCudaRequirements(c), at) == Success(c)
  {
    if c.cudaComputeCapability.Some? {
      CapabilityRoundTrip(c.cudaComputeCapability.value, at + [Key("cuda-compute-capability")]);
    }
  }

  lemma ResourceFlagsWritten(o: map<string, Json>, at: Path, networking: Option<bool>, gpu: Option<bool>,
                             cpuAvx: Option<bool>, cpuAvx2: Option<bool>)
    requires Writes(o, NetworkingField, OrNull(networking, Flag))
    requires Writes(o, GpuField, OrNull(gpu, Flag))
    requires Writes(o, CpuAvxField, OrNull(cpuAvx, Flag))
    requires Writes(o, CpuAvx2Field, OrNull(cpuAvx2, Flag))
    ensures Opt(o, NetworkingField, NestedByName, at, AsBool) == Success(networking)
    ensures Opt(o, GpuField, NestedByName, at, AsBool) == Success(gpu)
    ensures Opt(o, CpuAvxField, NestedByName, at, AsBool) == Success(cpuAvx)
    ensures Opt(o, CpuAvx2Field, NestedByName, at, AsBool) == Success(cpuAvx2)
  {
    OptWritten(o, NetworkingField, NestedByName, at, AsBool, networking, Flag);
    OptWritten(o, GpuField, NestedByName, at, AsBool, gpu, Flag);
    OptWritten(o, CpuAvxField, NestedByName, at, AsBool, cpuAvx, Flag);
    OptWritten(o, CpuAvx2Field, NestedByName, at, AsBool, cpuAvx2, Flag);
  }

  /** An object holding the fields of `r` where the encoder writes them decodes to `r`. */
  lemma {:induction false} ResourcesRead(o: map<string, Json>, r: Resources, at: Path)
    requires Writes(o, NetworkingField, OrNull(r.networking, Flag))
    requires Writes(o, RamMinField, OrNull(r.ramMin, Numeric))
    requires Writes(o, CoresMinField, OrNull(r.coresMin, Numeric))
    requires Writes(o, GpuField, OrNull(r.gpu, Flag))
    requires Writes(o, CudaRequirementsField, OrNull(r.cudaRequirements, EncodeCudaRequirements))
    requires Writes(o, CpuAvxField, OrNull(r.cpuAvx, Flag))
    requires Writes(o, CpuAvx2Field, OrNull(r.cpuAvx2, Flag))
    ensures DecodeResources(JObject(o), at) == Success(r)
  {
    ResourceFlagsWritten(o, at, r.networking, r.gpu, r.cpuAvx, r.cpuAvx2);
    OptWritten(o, RamMinField, NestedByName, at, AsNumber, r.ramMin, Numeric);
    OptWritten(o, CoresMinField, NestedByName, at, AsNumber, r.coresMin, Numeric);
    if r.cudaRequirements.Some? {
      CudaRequirementsRoundTrip(r.cudaRequirements.value, at + [Key("cuda-requirements")]);
    }
    OptWritten(o, CudaRequirementsField, NestedByName, at, DecodeCudaRequirements, r.cudaRequirements, EncodeCudaRequirements);
  }

  lemma {:induction false} ResourcesRoundTrip(r: Resources, at: Path)
    ensures DecodeResources(EncodeResources(r), at) == Success(r)
  {
    ResourcesEntries(r);
    ResourcesRead(EncodeResources(r).fields, r, at);
  }

  lemma {:induction false} ConfigurationRoundTrip(c: Configuration, at: Path)
    ensures DecodeConfiguration(EncodeConfiguration(c), at) == Success(c)
  {
    var o := EncodeConfiguration(c).fields;
    OptWritten(o, InputFolderField, NestedByName, at, AsString, c.inputFolder, Str);
    OptWritten(o, OutputFolderField, NestedByName, at, AsString, c.outputFolder, Str);
    if c.resources.Some? {
      ResourcesRoundTrip(c.resources.value, at + [Key("resources")]);
    }
    OptWritten(o, ResourcesField, NestedByName, at, DecodeResources, c.resources, EncodeResources);
  }

  lemma FileParameterRoundTrip(p: FileParameter, at: Path)
    ensures DecodeFileParameter(EncodeFileParameter(p), at) == Success(p)
  {
  }

  lemma ImageParameterRoundTrip(p: ImageParameter, at: Path)
    ensures DecodeImageParameter(EncodeImageParameter(p), at) == Success(p)
  {
  }

  lemma ArrayParameterRoundTrip(p: ArrayParameter, at: Path)
    ensures DecodeArrayParameter(EncodeArrayParameter(p), at) == Success(p)
  {
  }

  /** The metadata fields Parameter and OutputParameter share, read back from their encoding. */
  lemma MetadataWritten(o: map<string, Json>, at: Path, name: Option<string>, description: Option<string>,
                        valueKey: Option<string>, flag: Option<string>)
    requires Writes(o, NameField, OrNull(name, Str))
    requires Writes(o, DescriptionField, OrNull(description, Str))
    requires Writes(o, ValueKeyField, OrNull(valueKey, Str))
    requires Writes(o, CommandLineFlagField, OrNull(flag, Str))
    ensures Opt(o, NameField, NestedByName, at, AsString) == Success(name)
    ensures Opt(o, DescriptionField, NestedByName, at, AsString) == Success(description)
    ensures Opt(o, ValueKeyField, NestedByName, at, AsString) == Success(valueKey)
    ensures Opt(o, CommandLineFlagField, NestedByName, at, AsString) == Success(flag)
  {
    OptWritten(o, NameField, NestedByName, at, AsString, name, Str);
    OptWritten(o, DescriptionField, NestedByName, at, AsString, description, Str);
    OptWritten(o, ValueKeyField, NestedByName, at, AsString, valueKey, Str);
    OptWritten(o, CommandLineFlagField, NestedByName, at, AsString, flag, Str);
  }

  lemma FlagsWritten(o: map<string, Json>, at: Path, defaultValue: Option<DefaultValue>,
                     optional: Option<bool>, setByServer: Option<bool>)
    requires Writes(o, DefaultValueField, OrNull(defaultValue, EncodeDefaultValue))
    requires Writes(o, OptionalField, OrNull(optional, Flag))
    requires Writes(o, SetByServerField, OrNull(setByServer, Flag))
    ensures Opt(o, DefaultValueField, NestedByName, at, AsDefaultValue) == Success(defaultValue)
    ensures Opt(o, OptionalField, NestedByName, at, AsBool) == Success(optional)
    ensures Opt(o, SetByServerField, NestedByName, at, AsBool) == Success(setByServer)
  {
    OptWritten(o, DefaultValueField, NestedByName, at, AsDefaultValue, defaultValue, EncodeDefaultValue);
    OptWritten(o, OptionalField, NestedByName, at, AsBool, optional, Flag);
    OptWritten(o, SetByServerField, NestedByName, at, AsBool, setByServer, Flag);
  }

  /** Each field of `p`, read back from where the encoder writes it. */
  lemma ParameterFieldsRead(o: map<string, Json>, p: Parameter, at: Path)
    requires Writes(o, IdField, JString(p.id))
    requires Writes(o, TypeField, JString(p.kind.Name()))
    requires Writes(o, NameField, OrNull(p.name, Str))
    requires Writes(o, DescriptionField, OrNull(p.description, Str))
    requires Writes(o, ValueKeyField, OrNull(p.valueKey, Str))
    requires Writes(o, CommandLineFlagField, OrNull(p.commandLineFlag, Str))
    requires Writes(o, DefaultValueField, OrNull(p.defaultValue, EncodeDefaultValue))
    requires Writes(o, OptionalField, OrNull(p.optional, Flag))
    requires Writes(o, SetByServerField, OrNull(p.setByServer, Flag))
    requires Writes(o, FormatField, OrNull(p.format, Str))
    requires Writes(o, SubTypeField, OrNull(p.subType, Str))
    ensures Req(o, IdField, NestedByName, at, AsString) == Success(p.id)
    ensures Req(o, TypeField, NestedByName, at, AsParameterType) == Success(p.kind)
    ensures Opt(o, NameField, NestedByName, at, AsString) == Success(p.name)
    ensures Opt(o, DescriptionField, NestedByName, at, AsString) == Success(p.description)
    ensures Opt(o, ValueKeyField, NestedByName, at, AsString) == Success(p.valueKey)
    ensures Opt(o, CommandLineFlagField, NestedByName, at, AsString) == Success(p.commandLineFlag)
    ensures Opt(o, DefaultValueField, NestedByName, at, AsDefaultValue) == Success(p.defaultValue)
    ensures Opt(o, OptionalField, NestedByName, at, AsBool) == Success(p.optional)
    ensures Opt(o, SetByServerField, NestedByName, at, AsBool) == Success(p.setByServer)
    ensures Opt(o, FormatField, NestedByName, at, AsString) == Success(p.format)
    ensures Opt(o, SubTypeField, NestedByName, at, AsString) == Success(p.subType)
  {
    ReqWritten(o, IdField, NestedByName, at, AsString, p.id, Str);
    ReqWritten(o, TypeField, NestedByName, at, AsParameterType, p.kind, (t: ParameterType) => JString(t.Name()));
    MetadataWritten(o, at, p.name, p.description, p.valueKey, p.commandLineFlag);
    FlagsWritten(o, at, p.defaultValue, p.optional, p.setByServer);
    OptWritten(o, FormatField, NestedByName, at, AsString, p.format, Str);
    OptWritten(o, SubTypeField, NestedByName, at, AsString, p.subType, Str);
  }

  /** An object holding the fields of `p` where the encoder writes them decodes to `p`. */
  lemma ParameterRead(o: map<string, Json>, p: Parameter, at: Path)
    requires Writes(o, IdField, JString(p.id))
    requires Writes(o, TypeField, JString(p.kind.Name()))
    requires Writes(o, NameField, OrNull(p.name, Str))
    requires Writes(o, DescriptionField, OrNull(p.description, Str))
    requires Writes(o, ValueKeyField, OrNull(p.valueKey, Str))
    requires Writes(o, CommandLineFlagField, OrNull(p.commandLineFlag, Str))
    requires Writes(o, DefaultValueField, OrNull(p.defaultValue, EncodeDefaultValue))
    requires Writes(o, OptionalField, OrNull(p.optional, Flag))
    requires Writes(o, SetByServerField, OrNull(p.setByServer, Flag))
    requires Writes(o, FormatField, OrNull(p.format, Str))
    requires Writes(o, SubTypeField, OrNull(p.subType, Str))
    ensures DecodeParameter(JObject(o), at) == Success(p)
  {
    ParameterFieldsRead(o, p, at);
  }

  lemma {:induction false} ParameterRoundTrip(p: Parameter, at: Path)
    ensures DecodeParameter(EncodeParameter(p), at) == Success(p)
  {
    ParameterEntries(p);
    ParameterRead(EncodeParameter(p).fields, p, at);
  }

  /** An object holding the fields of `p` where the encoder writes them decodes to `p`. */
  lemma OutputParameterRead(o: map<string, Json>, p: OutputParameter, at: Path)
    requires Writes(o, IdField, JString(p.id))
    requires Writes(o, TypeField, JString(p.kind.Name()))
    requires Writes(o, NameField, OrNull(p.name, Str))
    requires Writes(o, DescriptionField, OrNull(p.description, Str))
    requires Writes(o, ValueKeyField, OrNull(p.valueKey, Str))
    requires Writes(o, CommandLineFlagField, OrNull(p.commandLineFlag, Str))
    requires Writes(o, DefaultValueField, OrNull(p.defaultValue, EncodeDefaultValue))
    requires Writes(o, OptionalField, OrNull(p.optional, Flag))
    requires Writes(o, SetByServerField, OrNull(p.setByServer, Flag))
    ensures DecodeOutputParameter(JObject(o), at) == Success(p)
  {
    ReqWritten(o, IdField, NestedByName, at, AsString, p.id, Str);
    ReqWritten(o, TypeField, NestedByName, at, AsOutputType, p.kind, (t: OutputType) => JString(t.Name()));
    MetadataWritten(o, at, p.name, p.description, p.valueKey, p.commandLineFlag);
    FlagsWritten(o, at, p.defaultValue, p.optional, p.setByServer);
  }

  lemma {:induction false} OutputParameterRoundTrip(p: OutputParameter, at: Path)
    ensures DecodeOutputParameter(EncodeOutputParameter(p), at) == Success(p)
  {
    OutputParameterEntries(p);
    OutputParameterRead(EncodeOutputParameter(p).fields, p, at);
  }

  lemma {:induction false} AuthorsRoundTrip(xs: seq<Author>, at: Path)
    ensures AsAuthors(AuthorList(xs), at) == Success(xs)
  {
    forall i, p | 0 <= i < |xs| ensures DecodeAuthor(EncodeAuthor(xs[i]), p) == Success(xs[i]) {
      AuthorRoundTrip(xs[i], p);
    }
    ListRoundTrip(xs, EncodeAuthor, DecodeAuthor, at);
  }

  lemma {:induction false} InstitutionsRoundTrip(xs: seq<Institution>, at: Path)
    ensures AsInstitutions(InstitutionList(xs), at) == Success(xs)
  {
    forall i, p | 0 <= i < |xs| ensures DecodeInstitution(EncodeInstitution(xs[i]), p) == Success(xs[i]) {
      InstitutionRoundTrip(xs[i], p);
    }
    ListRoundTrip(xs, EncodeInstitution, DecodeInstitution, at);
  }

  lemma {:induction false} CitationsRoundTrip(xs: seq<Citation>, at: Path)
    requires |xs| >= 1
    ensures AsCitations(ArrayOf(xs, EncodeCitation), at) == Success(xs)
  {
    forall i, p | 0 <= i < |xs| ensures DecodeCitation(EncodeCitation(xs[i]), p) == Success(xs[i]) {
      CitationRoundTrip(xs[i], p);
    }
    ListRoundTrip(xs, EncodeCitation, DecodeCitation, at);
  }

  lemma {:induction false} ParametersRoundTrip(xs: seq<Parameter>, at: Path)
    ensures AsParameters(ParameterList(xs), at) == Success(xs)
  {
    forall i, p | 0 <= i < |xs| ensures DecodeParameter(EncodeParameter(xs[i]), p) == Success(xs[i]) {
      ParameterRoundTrip(xs[i], p);
    }
    ListRoundTrip(xs, EncodeParameter, DecodeParameter, at);
  }

  lemma {:induction false} OutputParametersRoundTrip(xs: seq<OutputParameter>, at: Path)
    ensures AsOutputParameters(OutputParameterList(xs), at) == Success(xs)
  {
    forall i, p | 0 <= i < |xs| ensures DecodeOutputParameter(EncodeOutputParameter(xs[i]), p) == Success(xs[i]) {
      OutputParameterRoundTrip(xs[i], p);
    }
    ListRoundTrip(xs, EncodeOutputParameter, DecodeOutputParameter, at);
  }

  /** The optional lists and the configuration of a workflow, read back from where the encoder writes them. */
  lemma {:induction false} WorkflowOptionalsWritten(o: map<string, Json>, w: WorkflowSchema, at: Path)
    requires Writes(o, AuthorsField, OrNull(w.authors, AuthorList))
    requires Writes(o, InstitutionsField, OrNull(w.institutions, InstitutionList))
    requires Writes(o, ConfigurationField, OrNull(w.configuration, EncodeConfiguration))
    requires Writes(o, OutputsField, OrNull(w.outputs, OutputParameterList))
    ensures Opt(o, AuthorsField, WorkflowByName, at, AsAuthors) == Success(w.authors)
    ensures Opt(o, InstitutionsField, WorkflowByName, at, AsInstitutions) == Success(w.institutions)
    ensures Opt(o, ConfigurationField, WorkflowByName, at, DecodeConfiguration) == Success(w.configuration)
    ensures Opt(o, OutputsField, WorkflowByName, at, AsOutputParameters) == Success(w.outputs)
  {
    if w.authors.Some? {
      AuthorsRoundTrip(w.authors.value, at + [Key("authors")]);
    }
    OptWritten(o, AuthorsField, WorkflowByName, at, AsAuthors, w.authors, AuthorList);
    if w.institutions.Some? {
      InstitutionsRoundTrip(w.institutions.value, at + [Key("institutions")]);
    }
    OptWritten(o, InstitutionsField, WorkflowByName, at, AsInstitutions, w.institutions, InstitutionList);
    if w.configuration.Some? {
      ConfigurationRoundTrip(w.configuration.value, at + [Key("configuration")]);
    }
    OptWritten(o, ConfigurationField, WorkflowByName, at, DecodeConfiguration, w.configuration, EncodeConfiguration);
    if w.outputs.Some? {
      OutputParametersRoundTrip(w.outputs.value, at + [Key("outputs")]);
    }
    OptWritten(o, OutputsField, WorkflowByName, at, AsOutputParameters, w.outputs, OutputParameterList);
  }

  /** The required citations, container image and inputs of a workflow, read back from where the encoder writes them. */
  lemma {:induction false} WorkflowPartsWritten(o: map<string, Json>, w: WorkflowSchema, at: Path)
    requires ValidWorkflow(w)
    requires Writes(o, CitationsField, ArrayOf(w.citations, EncodeCitation))
    requires Writes(o, ContainerImageField, EncodeContainerImage(w.containerImage))
    requires Writes(o, InputsField, ParameterList(w.inputs))
    ensures Req(o, CitationsField, WorkflowByName, at, AsCitations) == Success(w.citations)
    ensures Req(o, ContainerImageField, WorkflowByName, at, DecodeContainerImage) == Success(w.containerImage)
    ensures Req(o, InputsField, WorkflowByName, at, AsParameters) == Success(w.inputs)
  {
    CitationsRoundTrip(w.citations, at + [Key("citations")]);
    ContainerImageRoundTrip(w.containerImage, at + [Key("container-image")]);
    ParametersRoundTrip(w.inputs, at + [Key("inputs")]);
    ReqWritten(o, CitationsField, WorkflowByName, at, AsCitations, w.citations, (cs: seq<Citation>) => ArrayOf(cs, EncodeCitation));
    ReqWritten(o, ContainerImageField, WorkflowByName, at, DecodeContainerImage, w.containerImage, EncodeContainerImage);
    ReqWritten(o, InputsField, WorkflowByName, at, AsParameters, w.inputs, ParameterList);
  }

  /** An object holding the fields of a valid `w` where the encoder writes them decodes to `w`. */
  lemma {:induction false} WorkflowRead(o: map<string, Json>, w: WorkflowSchema, at: Path)
    requires ValidWorkflow(w)
    requires Writes(o, NameField, JString(w.name))
    requires Writes(o, DescriptionField, JString(w.description))
    requires Writes(o, SchemaVersionField, JString(w.schemaVersion))
    requires Writes(o, AuthorsField, OrNull(w.authors, AuthorList))
    requires Writes(o, InstitutionsField, OrNull(w.institutions, InstitutionList))
    requires Writes(o, CitationsField, ArrayOf(w.citations, EncodeCitation))
    requires Writes(o, ContainerImageField, EncodeContainerImage(w.containerImage))
    requires Writes(o, ConfigurationField, OrNull(w.configuration, EncodeConfiguration))
    requires Writes(o, InputsField, ParameterList(w.inputs))
    requires Writes(o, OutputsField, OrNull(w.outputs, OutputParameterList))
    requires Writes(o, CommandLineField, JString(w.commandLine))
    ensures DecodeWorkflow(JObject(o), at) == Success(w)
  {
    ReqWritten(o, NameField, WorkflowByName, at, AsString, w.name, Str);
    ReqWritten(o, DescriptionField, WorkflowByName, at, AsString, w.description, Str);
    ReqWritten(o, SchemaVersionField, WorkflowByName, at, AsString, w.schemaVersion, Str);
    ReqWritten(o, CommandLineField, WorkflowByName, at, AsString, w.commandLine, Str);
    WorkflowPartsWritten(o, w, at);
    WorkflowOptionalsWritten(o, w, at);
  }

  /** Every valid workflow written with alias keys decodes back to itself. */
  lemma {:induction false} WorkflowRoundTrip(w: WorkflowSchema, at: Path)
    requires ValidWorkflow(w)
    ensures DecodeWorkflow(EncodeByAlias(w), at) == Success(w)
  {
    WorkflowEntries(w);
    WorkflowRead(EncodeByAlias(w).fields, w, at);
  }

  /** The alias-keyed document that `--json` serialises for a parsed workflow decodes to the same workflow. */
  lemma {:induction false} ReparseJsonOutput(j: Json)
    requires Decode(j).Success?
    ensures Decode(EncodeByAlias(Decode(j).value)) == Decode(j)
  {
    WorkflowRoundTrip(Decode(j).value, []);
  }
}

=== FILE: wrappers.dfy ===
/** Option and Result, the failure-compatible wrappers the decoder returns. */
module Wrappers {

  datatype Option<+T> = None | Some(value: T)

  /** Success carries the decoded value; Failure the first validation error met. */
  datatype Result<+T, +E> = Success(value: T) | Failure(error: E) {

    predicate IsFailure() {
      Failure?
    }

    function PropagateFailure<U>(): Result<U, E>
      requires Failure?
    {
      Failure(error)
    }

    function Extract(): T
      requires Success?
    {
      value
    }
  }
}
